=== FILE: README.md ===
# tortoise-api-model core, in Dafny

This project models the two pieces of `tortoise_api_model` that carry logic of
their own, and proves what they promise.

- **The admin-form classifier.** `Model.field_input_map` turns every field of a
  model into an *input descriptor*: a dictionary the admin UI renders.
  - `type2input` looks the field's exact class up in a fixed table. Composite
    classes nest the descriptor of their `base_field` and add `step` and `labels`.
  - `field2input` overlays per-field attributes on the table entry: `required`,
    enum options, relation options with `source_field`, or `auto`.
  - The relation option maps come from `load_rel_options`. Each maps a related
    row's primary key to its `repr`, plus `'' -> 'Empty'` for a nullable relation.
  - `with_rels` and `_rel_pack` show a row together with its relations.
- **The relation-splitting upsert.** `Model.upsert(data, oid)` first pops the
  many-to-many, backward foreign-key and backward one-to-one keys out of the
  payload. It writes the remaining scalars, then applies the three buckets in
  that order against the store. Nothing is transactional: when a lookup
  raises, the writes already made stay.
- **The composite field classes of `fields.py`.** `PointField` and
  `RangeField` are collection fields with class attributes `base_field`,
  `step` and `SQL_TYPE`. Their constructors rewrite `base_field` and `step`
  *on the class*, and `RangeField`'s also rewrites `SQL_TYPE`.
  `PolygonField` is a list field: it has `base_field` and `SQL_TYPE` but no
  `step`, and no constructor of its own, so nothing rewrites its attributes.
  All three have `to_python_value`.

The ORM is replaced by an immutable `Store`:
- the rows of each model, by primary key, each row a map from attribute to value;
- the many-to-many association sets.

Operations are pure functions from store to store. `Upsert` returns the
exception together with the store as it was left. It also returns the payload
as the in-place pops left the caller's dictionary.

Modules:
- `Wrappers` (`Option`, `Result`)
- `Values` (the value domain, `str.endswith`, `str.replace('_', ' ')`, dictionary comprehensions)
- `Fields` (`fields.py`)
- `Storage` (the store)
- `Options` (`repr`, `load_rel_options`, `_rel_pack`, `with_rels`)
- `Classifier` (`field_input_map`)
- `Upsert` (`upsert`)

Where the code and its documentation disagree, the model follows the code:
- The step string for precision `p > 0` has exactly `p` fractional digits:
  `"0."`, then `p - 1` zeros, then `1`. Precision 2 gives `"0.01"`. A negative
  precision gives `"0.1"`, because `'0' * (p - 1)` is empty.
- Upserting with a truthy `oid` that no row has creates the row under that key.
  `update_or_create` does not raise.
- Constructing `PointField()` with the default precision 0 resets the class-wide
  `PointField.base_field` to `IntField`. This overrides the declared
  `FloatField`, and it keeps any `step` an earlier construction set.

Modelling choices:
- `type2input` recurses through `base_field`, so `Classifier.Type2Input`
  requires that the class state holds only scalar classes as bases
  (`Fields.ScalarBases`). `Fields.Declare` applies a sequence of field
  constructions, with a flag choosing between `RangeField.__new__` as written
  and the corrected constructor that forwards the precision.
  `Fields.DeclareKeepsScalarBases` shows, for both, that every state reachable
  by declaring fields satisfies the requirement.
- `fields_map`, `fetch_fields` and the `_meta` relation collections are given
  as sequences in iteration order. In `fields_map` and `fetch_fields` a later
  duplicate key overwrites an earlier one, as in a Python dictionary. A
  relation name listed twice is popped once, with the FIRST relation of that
  name: the first `data.pop` removes the key, so the `k in data` test skips
  every later occurrence.

## Model

| member | source | states |
|---|---|---|
| Fields.StepDenotesPrecision | tortoise_api_model/fields.py:24-25 | for precision p > 0 the step string reads as the decimal fraction 1/10^p, with exactly p fractional digits; a negative precision gives the step of precision 1 |
| Fields.ZerosValue | tortoise_api_model/fields.py:25 | the run of zeros between `0.` and the final `1` is all digits with value 0 |
| Fields.CollectionNew | tortoise_api_model/fields.py:23-27 | the new `base_field` is `FloatField` for a non-zero precision and `IntField` for 0; a non-zero precision sets the step to its step string (1/10^p when p > 0, `0.1` when p < 0), and precision 0 leaves the step as it was |
| Fields.ConstructPoint | tortoise_api_model/fields.py:23-27 | `PointField(p)` rewrites only the point class's attributes: the base follows the precision, the step is set from a non-zero precision and kept for 0; range attributes are untouched |
| Fields.ConstructRangeAsWritten | tortoise_api_model/fields.py:34-36 | as written, `RangeField(p)` sets `SQL_TYPE` to `numrange` iff p is non-zero, but always leaves an `IntField` base and the previous step |
| Fields.RangePrecisionIgnored | tortoise_api_model/fields.py:34-36 | a range declared with precision 2 gets `numrange` yet integer components and no step |
| Fields.ConstructRange | tortoise_api_model/fields.py:34-36 | with the precision forwarded, a range gets `numrange` and `FloatField` components for a non-zero precision and `int4range` and `IntField` for 0; a non-zero precision sets the step string of p, 0 keeps the old step; point attributes are untouched |
| Fields.DeclareKeepsScalarBases | tortoise_api_model/fields.py:26 | whatever composite fields are declared, every class-level `base_field` stays a scalar class, both with ranges constructed as written and with the precision forwarded |
| Fields.LastPointDecides | tortoise_api_model/fields.py:26 | the class-wide point base is decided by the last point constructed, whatever the earlier points and any later ranges were declared with, as written and with the range precision forwarded |
| Fields.PointStepSticks | tortoise_api_model/fields.py:24-26 | a point with precision 0 after one with precision p has integer components but keeps the step of precision p |
| Fields.ToPythonValue | tortoise_api_model/fields.py:13-17 | `None` stays `None`; a value already of the field's type is returned unchanged; anything else is packed into the field's type with the same components in order |
| Fields.RangeToPythonValue | tortoise_api_model/fields.py:38-42 | as for `ToPythonValue`, but each component of a packed range is converted first, position by position |
| Fields.ToPythonValueIdempotent | tortoise_api_model/fields.py:13-17 | converting twice is the same as converting once, for the generic and the range conversion |
| Values.SpaceUnderscores | tortoise_api_model/model.py:126 | every `_` of an enum member name becomes a space and every other character stays; no `_` is left |
| Values.Comprehension | tortoise_api_model/model.py:155 | a filtered dictionary comprehension holds exactly the keys of the kept entries, each with the value of its last kept entry |
| Options.Repr | tortoise_api_model/model.py:30-33 | the representation is the `_name` attribute's value when `_name` is a database field, `None` when the row leaves that field unset, and otherwise the default representation of the class and key |
| Options.RelOptions | tortoise_api_model/model.py:39-41 | the option keys are `''` (only for a nullable relation) and the primary key of every related row; `''` maps to `Empty` and each key to its row's representation |
| Options.LoadRelOptions | tortoise_api_model/model.py:36-42 | the keys are exactly the fetch-field names; each name maps to the option map of the last fetch field of that name |
| Options.LoadedOptions | tortoise_api_model/model.py:38-41 | a loaded relation map offers `''` iff the relation is nullable, labels it `Empty`, and offers every related row under its key with its representation |
| Options.PackMatchesOption | tortoise_api_model/model.py:157-158 | the packed `id` and `repr` of a related row are exactly a key and label of the option map loaded for its relation |
| Options.Check | tortoise_api_model/model.py:136-153 | a non-relational attribute is shown as it is, `None` included; a relational one is never shown plain: a loaded instance becomes exactly its `_rel_pack`, a fetched reverse relation exactly the packs of its objects in order, `None` the empty string (whether read as an empty relation or as a plain `None`), and anything else `None` |
| Options.CheckNoneEitherWay | tortoise_api_model/model.py:150-153 | both readings of `None` are shown alike: as `None` for an ordinary attribute and as `''` for a relation |
| Options.WithRels | tortoise_api_model/model.py:135-155 | the keys shown are exactly the attribute keys not ending in `_id`, each with the shown form of the last attribute of that key |
| Classifier.Type2Input | tortoise_api_model/model.py:81-119 | lookup succeeds iff the class and every class on its `base_field` chain has a table row; a descriptor always has `input` and only table keys |
| Classifier.RelationRow | tortoise_api_model/model.py:103-111 | foreign-key and one-to-one instances and backward one-to-ones are `select` without `multiple`; many-to-many and backward foreign keys are `select` with `multiple: True` |
| Classifier.ComponentDescriptors | tortoise_api_model/model.py:89-93 | integer components are numbers without a step; float components step by `0.001` |
| Classifier.PointDescriptor | tortoise_api_model/model.py:82-86 | a point is a `collection` labelled `lat`/`lon`, whose `base_field` is its component class's descriptor and whose `step` is the class's current step |
| Classifier.RangeDescriptor | tortoise_api_model/model.py:117 | a range is a `collection` labelled `from`/`to`, built from the range class's current base and step |
| Classifier.PolygonDescriptor | tortoise_api_model/model.py:116 | a polygon is a `list` whose `base_field` is the whole point descriptor, with `False` for `step` and `labels` |
| Classifier.PointPrecisionDrivesDescriptor | tortoise_api_model/fields.py:23-27 | after `PointField(p)` with p > 0 the point descriptor steps by exactly 1/10^p over float components; with p = 0 it keeps the old step over integer components |
| Classifier.RangeDescriptorAsWritten | tortoise_api_model/fields.py:34-36 | as written, a range's descriptor has integer components and the previous step whatever precision it was declared with |
| Classifier.RangePrecisionDrivesDescriptor | tortoise_api_model/fields.py:23-27 | with the precision forwarded, a range with p > 0 is described with step 1/10^p over float components |
| Classifier.NameToValueAt | tortoise_api_model/model.py:124 | char-enum options hold exactly the member names, each mapped to its value |
| Classifier.ValueToNameAt | tortoise_api_model/model.py:126 | int-enum and set options hold exactly the member values, each mapped to its name with `_` turned into spaces |
| Classifier.Attrs | tortoise_api_model/model.py:122-130 | overlay fails iff the field is relational and its options are not loaded; `required` is `not null`; `options` iff enum, set or relation; `source_field` iff relation; `auto` iff none of those and the field is generated or auto-now, and then it is `True` |
| Classifier.Field2Input | tortoise_api_model/model.py:121-131 | succeeds iff the class is listed and a relation's options are loaded; keys are the table keys and the overlay keys, overlay values win, table values stay elsewhere; `required` and the exclusive `options`/`auto` rules hold, and `auto` is always `True` |
| Classifier.RelationDescriptor | tortoise_api_model/model.py:127-128 | a relation field is a `select` whose `options` is the loaded map of its key and whose `source_field` is the field's; `multiple` only for many-to-many and backward foreign keys |
| Classifier.CharEnumDescriptor | tortoise_api_model/model.py:123-124 | a char-enum field is a `select` without `auto` whose options are exactly the member names with their values |
| Classifier.IntEnumDescriptor | tortoise_api_model/model.py:125-126 | an int-enum or set field is a `select` without `auto` whose options are exactly the member values with their spaced names |
| Classifier.Gather | tortoise_api_model/model.py:133 | a comprehension whose value can raise fails iff some kept entry fails, and otherwise holds exactly the kept keys with the last kept value of each |
| Classifier.FieldInputMap | tortoise_api_model/model.py:133 | the map succeeds iff every field whose key does not end in `_id` classifies; its keys are exactly those fields' keys, each mapped to its field's descriptor |
| Classifier.LoadedOptionsSuffice | tortoise_api_model/model.py:36-42 | once options are loaded for every shown relation, the map fails only when some shown class is missing from the table |
| Storage.FreshPk | tortoise_api_model/model.py:61 | `create` stores the row under a positive key no row of the model has |
| Storage.AddLinks | tortoise_api_model/model.py:67 | `add` extends one association by the given keys and touches nothing else |
| Upsert.Pop | tortoise_api_model/model.py:49 | the popped entries are exactly the payload keys that are relation names, with their payload values, each once; the rest of the payload is unchanged |
| Upsert.Popped | tortoise_api_model/model.py:49 | popping in relation order yields each payload relation once, with its payload value |
| Upsert.PoppedComplete | tortoise_api_model/model.py:49 | every relation named in the payload is popped with its payload value |
| Upsert.Split | tortoise_api_model/model.py:49-51 | the scalars are the payload minus every relation name of the three kinds, with their values unchanged |
| Upsert.SplitPartitions | tortoise_api_model/model.py:49-51 | every payload key lands in exactly one bucket or in the scalars; each bucket holds exactly the remaining keys of its kind with their payload values |
| Upsert.SplitIdempotent | tortoise_api_model/model.py:49-51 | splitting the scalars again pops nothing |
| Upsert.WriteScalar | tortoise_api_model/model.py:61 | a truthy `oid` updates row `oid` with the scalars, keeping its other attributes and adding no attribute outside those two, or creates it there; otherwise a new row holding exactly the scalars gets a fresh key; no other row and no association changes |
| Upsert.WriteScalarIdempotent | tortoise_api_model/model.py:61 | writing the same scalars to the same truthy `oid` twice is the same as once |
| Upsert.Resolve | tortoise_api_model/model.py:66 | lookup succeeds iff the value is a list whose every id is a key of the target, giving exactly those keys; otherwise it names the missing id or the non-list value |
| Upsert.ApplyM2M | tortoise_api_model/model.py:64-67 | the many-to-many phase changes no row, never removes an association, touches only the saved row's popped relations, and completes iff every entry resolves |
| Upsert.M2MAdds | tortoise_api_model/model.py:64-67 | after the phase each relation's association is its old set together with the listed ids |
| Upsert.M2MMissingIdAddsNothing | tortoise_api_model/model.py:66-67 | an entry with a missing id leaves its association unchanged, because every id is looked up before `add` |
| Upsert.ApplyBfk | tortoise_api_model/model.py:68-71 | the backward foreign-key phase creates and deletes no row, touches no association, and completes iff every entry resolves |
| Upsert.BfkStep | tortoise_api_model/model.py:71 | one entry sets the foreign key of exactly its listed rows to the owner's key |
| Upsert.BfkLeavesUnlisted | tortoise_api_model/model.py:68-71 | every row no entry lists is unchanged, including rows that pointed at the owner before |
| Upsert.BfkPointsAtOwner | tortoise_api_model/model.py:68-71 | after the phase every listed row's foreign key holds the owner's key |
| Upsert.ApplyBo2o | tortoise_api_model/model.py:72-75 | the backward one-to-one phase creates and deletes no row, touches no association, completes iff every id names a row, and raises only a missing row |
| Upsert.Bo2oStep | tortoise_api_model/model.py:74-75 | one entry sets the attribute named by the owner's `db_table` on exactly the named row to the owner |
| Upsert.Bo2oLeavesUnnamed | tortoise_api_model/model.py:72-75 | every row no entry names is unchanged |
| Upsert.Bo2oRefersToOwner | tortoise_api_model/model.py:72-75 | after the phase every named row refers to the owner under the owner's `db_table` |
| Upsert.Upsert | tortoise_api_model/model.py:45-77 | the result key is `oid` when truthy, else a fresh key; the saved row exists; associations only grow; the only new row is the saved one; the caller's payload is left holding exactly its non-relation keys with their values, whether upsert returns or raises |
| Upsert.RetryRelatesNothing | tortoise_api_model/model.py:49-51 | calling upsert again with the payload the first call left behind applies no relation: it returns normally, leaves every association as it was, and leaves the payload as it is |
| Upsert.UpsertSucceeds | tortoise_api_model/model.py:61-75 | upsert returns normally iff every id in every bucket names a row once the scalars are written |
| Upsert.UpsertPhases | tortoise_api_model/model.py:61-75 | a missing many-to-many id leaves the rows exactly as the scalar write left them; otherwise every popped many-to-many association gained its ids, even when a later phase raises |
| Upsert.UpsertKeepsBfk | tortoise_api_model/model.py:64-75 | once every many-to-many and backward foreign-key id exists, each listed row refers to the saved row whether upsert returns or the backward one-to-one phase raises, unless a backward one-to-one entry names that row |
| Upsert.RelateKeepsBfk | tortoise_api_model/model.py:64-75 | the same for the three relation phases run after any scalar write |
| Upsert.OwnerRowAsWritten | tortoise_api_model/model.py:61-75 | whatever the outcome, the saved row keeps what the scalar write put in it unless a backward entry names that row |
| Upsert.M2MAccumulates | tortoise_api_model/model.py:64-67 | two upserts of one row through the same many-to-many relation leave the old ids and the ids of both payloads |

## Left out

- Password hashing (`hash_pwd`, `vrf_pwd`, `CryptContext`, model.py:183-197): a foreign bcrypt library.
- `tortoise_api_model/pydantic.py`: declarative schemas with no logic.
- The Tortoise ORM runtime. `update_or_create`, `create`, `remote_model[i]`, `.add`, `.save` and `related_model.all()` are replaced by the map store. No query or database behaviour is modelled: no defaults, no constraints, no type coercion of values.
- `async`/`await` and interleaving between concurrent calls. Each call is one sequential step.
- The `__repr__` text of a model: `Options.Repr` returns the symbolic `DefaultRepr(class, key)` in its place.
- Primary-key coercion by the ORM: an id must be an integer key of the target. A string id such as `"3"` is treated as missing.
- Upsert.Resolve: a payload value that is not a list raises `NotIterable`. Python would iterate a string character by character and look each character up; that coercion path is not modelled.
- Upsert.Upsert: a primary key given inside the payload itself is not treated specially. It is stored as an ordinary attribute.
- Upsert.Upsert: `oid` is modelled as an optional integer. Python truthiness of other `oid` values is not modelled.
- Float conversion in `RangeField.to_python_value` (fields.py:40): the conversion is a parameter applied to opaque components.
- `self.validate(value)` in `to_python_value`: validators are not modelled; the model returns the converted value.
- The asyncpg `Point`/`Polygon`/`Range` constructors and their arity checks: not visible in the source.
- `SQL_TYPE` of `PointField` and `PolygonField` are the constants `Fields.PointSqlType` and `Fields.PolygonSqlType`; no property is stated about them.
- `with_rels` lazy loading: which relations are loaded depends on the runtime's prefetching. Only the branch table of `check` is modelled, with the attribute contents as input.
- `FieldType` (the enum of input names) is not part of this model. Its member names are the string constants of `Classifier`.
- The definitions of `SetField` and `DatetimeSecField` are not part of this model. `model.py` imports them from `tortoise_api_model/fields.py`, but the version of that file modelled here does not define them, so their class attributes are unknown, including whether `SetField` has a `base_field` that `type2input` would recurse into. They appear only as table classes without a base.
- Tortoise's `fields_map`, `fetch_fields` and relation collections are given as inputs. How Tortoise derives them from the class declarations is not modelled.

## Findings

| source | as written | input that shows it | evidently intended | confidence | as-written member | corrected member |
|---|---|---|---|---|---|---|
| tortoise_api_model/fields.py:34-36 | `RangeField.__new__` sets `SQL_TYPE` from the precision, then calls `CollectionField.__new__` without passing the precision on, so that runs with its default 0 | `RangeField(2)`: the column is `numrange`, but `base_field` is `IntField` and `step` stays `None`, so the form offers integer inputs for a decimal range | the precision reaches `CollectionField.__new__`: `base_field` `FloatField`, `step` `"0.01"` | not executed | Fields.RangePrecisionIgnored | Fields.ConstructRange |

=== FILE: classifier.dfy ===
/** `Model.field_input_map`: each field of a model is classified into an input
    descriptor, a dictionary the admin UI renders. `type2input` looks the
    field's exact class up in a fixed table; `field2input` overlays the
    per-field attributes on the table entry. */
module Classifier {
  import opened Wrappers
  import opened Values
  import opened Fields
  import opened Options
  import opened Storage

  /** A value of a descriptor dictionary. `DBool(false)` and `DNone` are the
      falsy results of `hasattr(ft, x) and ft.x` that the table keeps. */
  datatype DVal =
    | DBool(b: bool)
    | DNone
    | DStr(s: string)
    | DLabels(labels: seq<string>)
    | DDict(d: map<string, DVal>)
    | DOptions(options: OptionMap)

  /** An input descriptor: the dictionary `field2input` returns. */
  type Descriptor = map<string, DVal>

  datatype ClassifyError =
    | UnlistedClass(name: string)  // `type2inputs[ft]` raises KeyError
    | OptionsNotLoaded(key: string) // `cls._options[key]` raises KeyError

  /** The names of the `FieldType` members the descriptors use. */
  const Input := "input"
  const Textarea := "textarea"
  const Checkbox := "checkbox"
  const Select := "select"
  const Collection := "collection"
  const ListInput := "list"

  /** What `field2input` reads from a field instance: its exact class,
      `null`, `generated`, whether `auto_now` is in the instance's `__dict__`
      and the values of `auto_now` / `auto_now_add`, the enum members
      (name, value) in declaration order, and `source_field`. */
  datatype FieldSpec = FieldSpec(
    cls: FieldClass,
    nullable: bool,
    generated: bool,
    hasAutoNow: bool,
    autoNow: bool,
    autoNowAdd: bool,
    members: seq<(string, Val)>,
    sourceField: string)

  /** `isinstance(field, RelationalField)`. */
  predicate IsRelational(c: FieldClass) {
    c.ForeignKeyFieldInstance? || c.OneToOneFieldInstance? || c.ManyToManyFieldInstance?
    || c.BackwardFKRelation? || c.BackwardOneToOneRelation?
  }

  /** `isinstance(field, CharEnumFieldInstance)`. */
  predicate IsCharEnum(c: FieldClass) {
    c.CharEnumFieldInstance?
  }

  /** `isinstance(field, IntEnumFieldInstance) or isinstance(field, SetField)`. */
  predicate IsIntEnumOrSet(c: FieldClass) {
    c.IntEnumFieldInstance? || c.SetField?
  }

  /** `field.generated or ('auto_now' in field.__dict__ and (field.auto_now or field.auto_now_add))`. */
  predicate IsAuto(f: FieldSpec) {
    f.generated || (f.hasAutoNow && (f.autoNow || f.autoNowAdd))
  }

  /** `ft.base_field` for the classes that have one. */
  function BaseField(c: FieldClass, cs: ClassState): (b: Option<FieldClass>)
    ensures b.Some? <==> c.PointField? || c.RangeField? || c.PolygonField?
    ensures ScalarBases(cs) && b.Some? ==> Depth(b.value) < Depth(c)
  {
    if c.PointField? then Some(cs.pointBase)
    else if c.RangeField? then Some(cs.rangeBase)
    else if c.PolygonField? then Some(PointField)
    else None
  }

  /** `ft.step` for the classes that have one (`None` until a precision sets it). */
  function StepAttr(c: FieldClass, cs: ClassState): Option<Option<string>> {
    if c.PointField? then Some(cs.pointStep)
    else if c.RangeField? then Some(cs.rangeStep)
    else None
  }

  /** The value of a class's `step`: `None` or the step string. */
  function StepValue(step: Option<string>): DVal {
    match step
    case None => DNone
    case Some(s) => DStr(s)
  }

  /** `ft.labels` for the classes that have one. */
  function LabelsAttr(c: FieldClass): Option<seq<string>> {
    if c.PointField? then Some(PointLabels)
    else if c.RangeField? then Some(RangeLabels)
    else None
  }

  /** A class has a row in the table, and so does every class on its
      `base_field` chain. */
  predicate Listed(c: FieldClass, cs: ClassState) {
    && !c.Unlisted?
    && (c.RangeField? ==> !cs.rangeBase.Unlisted?)
    && (c.PointField? || c.PolygonField? ==> !cs.pointBase.Unlisted?)
  }

  /** Every key a table row can hold; none of them is an overlay attribute. */
  const TableKeys: set<string> := {"input", "type", "step", "rows", "multiple", "base_field", "labels"}

  /** The table row of a class, with the `dry` part (`base_field`, `step`,
      `labels`) spliced into the composite rows. */
  function Row(ft: FieldClass, dry: Descriptor): (r: Option<Descriptor>)
    ensures r.Some? <==> !ft.Unlisted?
    ensures r.Some? ==> "input" in r.value && r.value.Keys <= TableKeys + dry.Keys
  {
    match ft
    case CharField => Some(map["input" := DStr(Input)])
    case IntField => Some(map["input" := DStr(Input), "type" := DStr("number")])
    case SmallIntField => Some(map["input" := DStr(Input), "type" := DStr("number")])
    case BigIntField => Some(map["input" := DStr(Input), "type" := DStr("number")])
    case DecimalField => Some(map["input" := DStr(Input), "type" := DStr("number"), "step" := DStr("0.01")])
    case FloatField => Some(map["input" := DStr(Input), "type" := DStr("number"), "step" := DStr("0.001")])
    case TextField => Some(map["input" := DStr(Textarea), "rows" := DStr("2")])
    case BooleanField => Some(map["input" := DStr(Checkbox)])
    case DatetimeField => Some(map["input" := DStr(Input), "type" := DStr("datetime")])
    case DatetimeSecField => Some(map["input" := DStr(Input), "type" := DStr("datetime")])
    case DateField => Some(map["input" := DStr(Input), "type" := DStr("date")])
    case TimeField => Some(map["input" := DStr(Input), "type" := DStr("time")])
    case JSONField => Some(map["input" := DStr(Input)])
    case IntEnumFieldInstance => Some(map["input" := DStr(Select)])
    case CharEnumFieldInstance => Some(map["input" := DStr(Select)])
    case ForeignKeyFieldInstance => Some(map["input" := DStr(Select)])
    case OneToOneFieldInstance => Some(map["input" := DStr(Select)])
    case ManyToManyFieldInstance => Some(map["input" := DStr(Select), "multiple" := DBool(true)])
    case ForeignKeyRelation => Some(map["input" := DStr(Select), "multiple" := DBool(true)])
    case OneToOneRelation => Some(map["input" := DStr(Select)])
    case BackwardOneToOneRelation => Some(map["input" := DStr(Select)])
    case ManyToManyRelation => Some(map["input" := DStr(Select), "multiple" := DBool(true)])
    case ForeignKeyNullableRelation => Some(map["input" := DStr(Select), "multiple" := DBool(true)])
    case BackwardFKRelation => Some(map["input" := DStr(Select), "multiple" := DBool(true)])
    case SetField => Some(map["input" := DStr(Select), "multiple" := DBool(true)])
    case OneToOneNullableRelation => Some(map["input" := DStr(Select)])
    case PointField => Some(map["input" := DStr(Collection)] + dry)
    case PolygonField => Some(map["input" := DStr(ListInput)] + dry)
    case RangeField => Some(map["input" := DStr(Collection)] + dry)
    case Unlisted(_) => None
  }

  /** `type2input(ft)`: the `dry` attributes are computed first (recursing into
      `base_field`), then the class is looked up by identity. */
  function Type2Input(ft: FieldClass, cs: ClassState): (r: Result<Descriptor, ClassifyError>)
    requires ScalarBases(cs)
    ensures r.Ok? <==> Listed(ft, cs)
    ensures r.Ok? ==> "input" in r.value && r.value.Keys <= TableKeys
    decreases Depth(ft)
  {
    var baseField :- match BaseField(ft, cs)
      case None => Ok(DBool(false))
      case Some(b) => (var d :- Type2Input(b, cs); Ok(DDict(d)));
    var step := match StepAttr(ft, cs)
      case None => DBool(false)
      case Some(st) => StepValue(st);
    var labels := match LabelsAttr(ft)
      case None => DBool(false)
      case Some(ls) => DLabels(ls);
    var dry := map["base_field" := baseField, "step" := step, "labels" := labels];
    match Row(ft, dry)
    case None => Err(UnlistedClass(ft.name))
    case Some(d) => Ok(d)
  }

  /** Char-enum options: member name to member value. */
  function NameToValue(members: seq<(string, Val)>): (o: OptionMap)
    ensures o.Keys == set i | 0 <= i < |members| :: Str(members[i].0)
    ensures forall k :: k in o ==> k.Str?
  {
    var pairs := seq(|members|, i requires 0 <= i < |members| => (Str(members[i].0), members[i].1));
    assert forall i :: 0 <= i < |members| ==> pairs[i].0 == Str(members[i].0);
    assert (set i | 0 <= i < |pairs| :: pairs[i].0) == set i | 0 <= i < |members| :: Str(members[i].0);
    Dict(pairs)
  }

  /** Int-enum and set options: member value to member name with `_` shown as a space. */
  function ValueToName(members: seq<(string, Val)>): (o: OptionMap)
    ensures o.Keys == set i | 0 <= i < |members| :: members[i].1
  {
    var pairs := seq(|members|, i requires 0 <= i < |members| => (members[i].1, Str(SpaceUnderscores(members[i].0))));
    assert forall i :: 0 <= i < |members| ==> pairs[i].0 == members[i].1;
    assert (set i | 0 <= i < |pairs| :: pairs[i].0) == set i | 0 <= i < |members| :: members[i].1;
    Dict(pairs)
  }

  /** The attributes `field2input` overlays: `required` always, then the first
      branch that applies of enum options, relation options, or `auto`. */
  function Attrs(key: string, f: FieldSpec, options: map<string, OptionMap>): (r: Result<Descriptor, ClassifyError>)
    ensures r.Err? <==> IsRelational(f.cls) && key !in options
    ensures r.Ok? ==> "required" in r.value && r.value["required"] == DBool(!f.nullable)
    ensures r.Ok? ==> ("options" in r.value <==> IsCharEnum(f.cls) || IsIntEnumOrSet(f.cls) || IsRelational(f.cls))
    ensures r.Ok? ==> ("auto" in r.value <==>
      !IsCharEnum(f.cls) && !IsIntEnumOrSet(f.cls) && !IsRelational(f.cls) && IsAuto(f))
    ensures r.Ok? ==> ("source_field" in r.value <==> IsRelational(f.cls))
    ensures r.Ok? && "auto" in r.value ==> r.value["auto"] == DBool(true)
    ensures r.Ok? ==> r.value.Keys <= {"required", "options", "source_field", "auto"}
  {
    var attrs := map["required" := DBool(!f.nullable)];
    if IsCharEnum(f.cls) then Ok(attrs["options" := DOptions(NameToValue(f.members))])
    else if IsIntEnumOrSet(f.cls) then Ok(attrs["options" := DOptions(ValueToName(f.members))])
    else if IsRelational(f.cls) then
      if key in options
      then Ok(attrs["options" := DOptions(options[key])]["source_field" := DStr(f.sourceField)])
      else Err(OptionsNotLoaded(key))
    else if IsAuto(f) then Ok(attrs["auto" := DBool(true)])
    else Ok(attrs)
  }

  /** `field2input(key, field)`: `{**type2input(type(field)), **attrs}`. */
  function Field2Input(key: string, f: FieldSpec, options: map<string, OptionMap>, cs: ClassState): (r: Result<Descriptor, ClassifyError>)
    requires ScalarBases(cs)
    ensures r.Ok? <==> Listed(f.cls, cs) && (IsRelational(f.cls) ==> key in options)
    ensures r.Ok? ==> "required" in r.value && r.value["required"] == DBool(!f.nullable)
    ensures r.Ok? ==> ("auto" in r.value <==>
      !IsCharEnum(f.cls) && !IsIntEnumOrSet(f.cls) && !IsRelational(f.cls) && IsAuto(f))
    ensures r.Ok? && "auto" in r.value ==> r.value["auto"] == DBool(true)
    ensures r.Ok? ==> ("options" in r.value <==> IsCharEnum(f.cls) || IsIntEnumOrSet(f.cls) || IsRelational(f.cls))
    ensures r.Ok? ==> r.value.Keys == Type2Input(f.cls, cs).value.Keys + Attrs(key, f, options).value.Keys
    ensures r.Ok? ==> forall k :: k in Attrs(key, f, options).value ==> r.value[k] == Attrs(key, f, options).value[k]
    ensures r.Ok? ==> forall k :: k in Type2Input(f.cls, cs).value && k !in Attrs(key, f, options).value ==>
      r.value[k] == Type2Input(f.cls, cs).value[k]
  {
    var attrs :- Attrs(key, f, options);
    var table :- Type2Input(f.cls, cs);
    Ok(table + attrs)
  }

  /** A relation field is a `select` whose options are the map loaded for its
      key; it offers several choices exactly for many-to-many and backward
      foreign-key relations. */
  lemma RelationDescriptor(key: string, f: FieldSpec, options: map<string, OptionMap>, cs: ClassState)
    requires ScalarBases(cs)
    requires IsRelational(f.cls) && key in options
    ensures Field2Input(key, f, options, cs).Ok?
    ensures var d := Field2Input(key, f, options, cs).value;
      && d["input"] == DStr(Select)
      && d["options"] == DOptions(options[key])
      && d["source_field"] == DStr(f.sourceField)
      && ("multiple" in d <==> f.cls.ManyToManyFieldInstance? || f.cls.BackwardFKRelation?)
      && ("multiple" in d ==> d["multiple"] == DBool(true))
  {
    RelationRow(f.cls, cs);
    var attrs := Attrs(key, f, options).value;
    assert "input" !in attrs && "multiple" !in attrs;
  }

  /** The table row of a relation class. */
  lemma RelationRow(c: FieldClass, cs: ClassState)
    requires ScalarBases(cs) && IsRelational(c)
    ensures Type2Input(c, cs).Ok?
    ensures Type2Input(c, cs).value == if c.ManyToManyFieldInstance? || c.BackwardFKRelation?
      then map["input" := DStr(Select), "multiple" := DBool(true)]
      else map["input" := DStr(Select)]
  {
    if c.ManyToManyFieldInstance? || c.BackwardFKRelation? {
      ManyRow(c, cs);
    } else {
      SingleRow(c, cs);
    }
  }

  /** Many-to-many fields and backward foreign keys allow several choices. */
  lemma ManyRow(c: FieldClass, cs: ClassState)
    requires ScalarBases(cs) && (c.ManyToManyFieldInstance? || c.BackwardFKRelation?)
    ensures Type2Input(c, cs) == Ok(map["input" := DStr(Select), "multiple" := DBool(true)])
  {
  }

  /** Foreign-key and one-to-one fields and backward one-to-ones allow one choice. */
  lemma SingleRow(c: FieldClass, cs: ClassState)
    requires ScalarBases(cs) && (c.ForeignKeyFieldInstance? || c.OneToOneFieldInstance? || c.BackwardOneToOneRelation?)
    ensures Type2Input(c, cs) == Ok(map["input" := DStr(Select)])
  {
  }

  /** A char-enum field is a `select` without `auto` whose options map each
      member name to its value. */
  lemma CharEnumDescriptor(key: string, f: FieldSpec, options: map<string, OptionMap>, cs: ClassState)
    requires ScalarBases(cs)
    requires IsCharEnum(f.cls)
    ensures Field2Input(key, f, options, cs).Ok?
    ensures var d := Field2Input(key, f, options, cs).value;
      && d["input"] == DStr(Select)
      && "auto" !in d
      && d["options"] == DOptions(NameToValue(f.members))
  {
    assert Type2Input(f.cls, cs).value == map["input" := DStr(Select)];
  }

  /** An int-enum or set field is a `select` without `auto` whose options map
      each member value to its name. */
  lemma IntEnumDescriptor(key: string, f: FieldSpec, options: map<string, OptionMap>, cs: ClassState)
    requires ScalarBases(cs)
    requires IsIntEnumOrSet(f.cls)
    ensures Field2Input(key, f, options, cs).Ok?
    ensures var d := Field2Input(key, f, options, cs).value;
      && d["input"] == DStr(Select)
      && "auto" !in d
      && d["options"] == DOptions(ValueToName(f.members))
  {
    if f.cls.SetField? {
      SetDescriptor(key, f, options, cs);
    } else {
      assert Type2Input(f.cls, cs) == Ok(map["input" := DStr(Select)]);
    }
  }

  /** The set-field case of `IntEnumDescriptor`. */
  lemma SetDescriptor(key: string, f: FieldSpec, options: map<string, OptionMap>, cs: ClassState)
    requires ScalarBases(cs)
    requires f.cls.SetField?
    ensures Field2Input(key, f, options, cs).Ok?
    ensures var d := Field2Input(key, f, options, cs).value;
      && d["input"] == DStr(Select)
      && "auto" !in d
      && d["options"] == DOptions(ValueToName(f.members))
  {
    assert Type2Input(f.cls, cs) == Ok(map["input" := DStr(Select), "multiple" := DBool(true)]);
  }

  /** With distinct member names, a char enum offers each name with its value. */
  lemma NameToValueAt(members: seq<(string, Val)>, i: int)
    requires DistinctKeys(members) && 0 <= i < |members|
    ensures NameToValue(members).Keys == set j | 0 <= j < |members| :: Str(members[j].0)
    ensures NameToValue(members)[Str(members[i].0)] == members[i].1
  {
    var pairs := seq(|members|, j requires 0 <= j < |members| => (Str(members[j].0), members[j].1));
    assert DistinctKeys(pairs);
    DictOfDistinct(pairs, i);
  }

  /** With distinct member values, an int enum or set offers each value under
      its name, underscores shown as spaces. */
  lemma ValueToNameAt(members: seq<(string, Val)>, i: int)
    requires DistinctValues(members) && 0 <= i < |members|
    ensures ValueToName(members).Keys == set j | 0 <= j < |members| :: members[j].1
    ensures ValueToName(members)[members[i].1] == Str(SpaceUnderscores(members[i].0))
    ensures '_' !in ValueToName(members)[members[i].1].s
  {
    var pairs := seq(|members|, j requires 0 <= j < |members| => (members[j].1, Str(SpaceUnderscores(members[j].0))));
    assert DistinctKeys(pairs);
    DictOfDistinct(pairs, i);
  }

  /** Enum members have pairwise different values. */
  predicate DistinctValues(members: seq<(string, Val)>) {
    forall i, j :: 0 <= i < j < |members| ==> members[i].1 != members[j].1
  }

  /** A point is a `collection` labelled `lat`/`lon` whose `base_field` is the
      descriptor of the point class's current component class and whose `step`
      is the point class's current step. */
  lemma PointDescriptor(cs: ClassState)
    requires ScalarBases(cs) && !cs.pointBase.Unlisted?
    ensures Type2Input(PointField, cs).Ok? && Type2Input(cs.pointBase, cs).Ok?
    ensures var d := Type2Input(PointField, cs).value;
      && d["input"] == DStr(Collection)
      && d["labels"] == DLabels(["lat", "lon"])
      && d["base_field"] == DDict(Type2Input(cs.pointBase, cs).value)
      && d["step"] == StepValue(cs.pointStep)
  {
  }

  /** A range is a `collection` labelled `from`/`to`, built from the range
      class's current attributes. */
  lemma RangeDescriptor(cs: ClassState)
    requires ScalarBases(cs) && !cs.rangeBase.Unlisted?
    ensures Type2Input(RangeField, cs).Ok? && Type2Input(cs.rangeBase, cs).Ok?
    ensures var d := Type2Input(RangeField, cs).value;
      && d["input"] == DStr(Collection)
      && d["labels"] == DLabels(["from", "to"])
      && d["base_field"] == DDict(Type2Input(cs.rangeBase, cs).value)
      && d["step"] == StepValue(cs.rangeStep)
  {
  }

  /** A polygon is a `list` whose `base_field` is the whole point descriptor;
      it has neither a step nor labels. */
  lemma PolygonDescriptor(cs: ClassState)
    requires ScalarBases(cs) && !cs.pointBase.Unlisted?
    ensures Type2Input(PolygonField, cs).Ok? && Type2Input(PointField, cs).Ok?
    ensures var d := Type2Input(PolygonField, cs).value;
      && d["input"] == DStr(ListInput)
      && d["base_field"] == DDict(Type2Input(PointField, cs).value)
      && d["step"] == DBool(false)
      && d["labels"] == DBool(false)
  {
    PointDescriptor(cs);
  }

  /** The number descriptors a composite nests: integer components have no
      step, float components step by 0.001. */
  lemma ComponentDescriptors(cs: ClassState)
    requires ScalarBases(cs)
    ensures Type2Input(IntField, cs) == Ok(map["input" := DStr(Input), "type" := DStr("number")])
    ensures Type2Input(FloatField, cs) == Ok(map["input" := DStr(Input), "type" := DStr("number"), "step" := DStr("0.001")])
  {
  }

  /** Constructing a point with precision p > 0 gives every point descriptor a
      step of exactly 10^-p and float components; precision 0 gives integer
      components and keeps the previous step. */
  lemma PointPrecisionDrivesDescriptor(cs: ClassState, p: int)
    requires ScalarBases(cs)
    ensures var cs' := ConstructPoint(cs, p);
      ScalarBases(cs') && Type2Input(PointField, cs').Ok?
    ensures var cs' := ConstructPoint(cs, p);
      var d := Type2Input(PointField, cs').value;
      && (p > 0 ==> d["step"].DStr? && ReadFraction(d["step"].s) == Some((1, p)))
      && (p == 0 ==> d["step"] == StepValue(cs.pointStep))
      && d["base_field"] == DDict(Type2Input(if p != 0 then FloatField else IntField, cs').value)
  {
    var cs' := ConstructPoint(cs, p);
    PointDescriptor(cs');
    StepDenotesPrecision(p);
  }

  /** As written, a range field's descriptor ignores the precision it was
      declared with: integer components, and the step the class had before. */
  lemma RangeDescriptorAsWritten(cs: ClassState, p: int)
    requires ScalarBases(cs)
    ensures var cs' := ConstructRangeAsWritten(cs, p);
      ScalarBases(cs') && Type2Input(RangeField, cs').Ok?
    ensures var cs' := ConstructRangeAsWritten(cs, p);
      var d := Type2Input(RangeField, cs').value;
      && d["step"] == StepValue(cs.rangeStep)
      && d["base_field"] == DDict(Type2Input(IntField, cs').value)
  {
    var cs' := ConstructRangeAsWritten(cs, p);
    RangeDescriptor(cs');
  }

  /** With the precision forwarded, a range declared with precision p > 0 is
      described with a step of exactly 10^-p and float components. */
  lemma RangePrecisionDrivesDescriptor(cs: ClassState, p: int)
    requires ScalarBases(cs)
    ensures var cs' := ConstructRange(cs, p);
      ScalarBases(cs') && Type2Input(RangeField, cs').Ok?
    ensures var cs' := ConstructRange(cs, p);
      var d := Type2Input(RangeField, cs').value;
      && (p > 0 ==> d["step"].DStr? && ReadFraction(d["step"].s) == Some((1, p)))
      && (p == 0 ==> d["step"] == StepValue(cs.rangeStep))
      && d["base_field"] == DDict(Type2Input(if p != 0 then FloatField else IntField, cs').value)
  {
    var cs' := ConstructRange(cs, p);
    RangeDescriptor(cs');
  }

  /** `field_input_map()`: the descriptor of every field whose key does not end
      in `_id`, in `fields_map` order; the first field that raises aborts the
      whole map with its error. */
  function FieldInputMap(fields: seq<(string, FieldSpec)>, options: map<string, OptionMap>, cs: ClassState)
    : (r: Result<map<string, Descriptor>, ClassifyError>)
    requires ScalarBases(cs)
    ensures r.Ok? <==> forall i :: 0 <= i < |fields| && Shown(fields, i) ==> Classifies(fields[i], options, cs)
    ensures r.Ok? ==> r.value.Keys == set i | 0 <= i < |fields| && Shown(fields, i) :: fields[i].0
    ensures r.Ok? ==> forall i :: 0 <= i < |fields| && Shown(fields, i) && LastWith(fields, i) ==>
      r.value[fields[i].0] == Field2Input(fields[i].0, fields[i].1, options, cs).value
  {
    var entries := Entries(fields, options, cs);
    assert forall i :: 0 <= i < |fields| && LastWith(fields, i) ==> LastKeyed(entries, i);
    Gather(entries)
  }

  /** Each field with its key, whether it is shown, and its descriptor. */
  function Entries(fields: seq<(string, FieldSpec)>, options: map<string, OptionMap>, cs: ClassState)
    : (entries: seq<(string, bool, Result<Descriptor, ClassifyError>)>)
    requires ScalarBases(cs)
    ensures |entries| == |fields|
    ensures forall i :: 0 <= i < |fields| ==>
      entries[i].0 == fields[i].0 && entries[i].1 == Shown(fields, i) &&
      entries[i].2 == Field2Input(fields[i].0, fields[i].1, options, cs)
  {
    seq(|fields|, i requires 0 <= i < |fields| =>
      (fields[i].0, Shown(fields, i), Field2Input(fields[i].0, fields[i].1, options, cs)))
  }

  /** A dictionary comprehension whose value expression can raise: entries
      flagged `false` are skipped, the first error aborts, a later key
      overwrites an earlier one. */
  function Gather<V, E>(entries: seq<(string, bool, Result<V, E>)>): (r: Result<map<string, V>, E>)
    ensures r.Ok? <==> forall i :: 0 <= i < |entries| && entries[i].1 ==> entries[i].2.Ok?
    ensures r.Ok? ==> r.value.Keys == set i | 0 <= i < |entries| && entries[i].1 :: entries[i].0
    ensures r.Ok? ==> forall i :: 0 <= i < |entries| && entries[i].1 && LastKeyed(entries, i) ==>
      r.value[entries[i].0] == entries[i].2.value
  {
    if entries == [] then Ok(map[])
    else
      var (key, shown, d) := entries[0];
      assert forall i :: 1 <= i < |entries| ==> entries[1..][i - 1] == entries[i];
      assert forall i :: 1 <= i < |entries| && LastKeyed(entries, i) ==> LastKeyed(entries[1..], i - 1);
      var rest := Gather(entries[1..]);
      if !shown then rest
      else if d.Err? then Err(d.error)
      else if rest.Err? then rest
      else Ok(map[key := d.value] + rest.value)
  }

  /** The field at `i` appears in the map: its key does not end in `_id`. */
  predicate Shown(fields: seq<(string, FieldSpec)>, i: int)
    requires 0 <= i < |fields|
  {
    !EndsWith(fields[i].0, "_id")
  }

  /** `field2input` succeeds on the field. */
  predicate Classifies(field: (string, FieldSpec), options: map<string, OptionMap>, cs: ClassState)
    requires ScalarBases(cs)
  {
    Field2Input(field.0, field.1, options, cs).Ok?
  }

  /** The names of the fetch fields. */
  function FetchNames(fetch: seq<FetchField>): set<string> {
    set i | 0 <= i < |fetch| :: fetch[i].name
  }

  /** Once `load_rel_options` has run over fetch fields that cover every shown
      relation, `field_input_map` fails only on a class missing from the
      table. */
  lemma LoadedOptionsSuffice(fields: seq<(string, FieldSpec)>, fetch: seq<FetchField>, s: Store, cs: ClassState)
    requires ScalarBases(cs)
    requires forall i :: 0 <= i < |fields| && Shown(fields, i) && IsRelational(fields[i].1.cls) ==>
      fields[i].0 in FetchNames(fetch)
    ensures FieldInputMap(fields, LoadRelOptions(fetch, s), cs).Ok? <==>
      forall i :: 0 <= i < |fields| && Shown(fields, i) ==> Listed(fields[i].1.cls, cs)
  {
    var options := LoadRelOptions(fetch, s);
    forall i | 0 <= i < |fields| && Shown(fields, i) && IsRelational(fields[i].1.cls)
      ensures fields[i].0 in options
    {
      var j :| 0 <= j < |fetch| && fetch[j].name == fields[i].0;
      assert fetch[j].name in ByName(fetch);
    }
  }
}

=== FILE: fields.dfy ===
/** The field classes the classifier dispatches on, and the composite field
    classes of fields.py: the class attributes their constructors rewrite,
    the step string derived from a precision, and `to_python_value`. */
module Fields {
  import opened Wrappers

  /** The closed set of field classes that have a row in the input table, plus
      `Unlisted` for any other class. The `...Relation` constructors that are
      not `...Instance` classes are the typing aliases the table also lists. */
  datatype FieldClass =
    | CharField | IntField | SmallIntField | BigIntField | DecimalField | FloatField
    | TextField | BooleanField | DatetimeField | DatetimeSecField | DateField | TimeField
    | JSONField | IntEnumFieldInstance | CharEnumFieldInstance
    | ForeignKeyFieldInstance | OneToOneFieldInstance | ManyToManyFieldInstance
    | ForeignKeyRelation | OneToOneRelation | BackwardOneToOneRelation | ManyToManyRelation
    | ForeignKeyNullableRelation | BackwardFKRelation | SetField | OneToOneNullableRelation
    | PointField | PolygonField | RangeField
    | Unlisted(name: string)

  /** Position of a class in the `base_field` chain: a polygon's base is a point,
      a point's or range's base is a scalar class. */
  function Depth(c: FieldClass): nat {
    match c
    case PolygonField => 2
    case PointField => 1
    case RangeField => 1
    case _ => 0
  }

  /** The class attributes that the composite constructors assign on the CLASS,
      so that the last construction decides them for every field of that class. */
  datatype ClassState = ClassState(
    pointBase: FieldClass,
    pointStep: Option<string>,
    rangeBase: FieldClass,
    rangeStep: Option<string>,
    rangeSqlType: Option<string>)

  /** The attributes as declared, before any field is constructed: `PointField`
      declares `base_field = FloatField`; both classes inherit `step = None` from
      `CollectionField`; `RangeField` inherits `ListField.base_field = Field[VALUE]`
      and has no `SQL_TYPE` of its own. */
  const Declared := ClassState(FloatField, None, Unlisted("Field[VALUE]"), None, None)

  const PointSqlType := "POINT"
  const PolygonSqlType := "POLYGON"
  const PointLabels := ["lat", "lon"]
  const RangeLabels := ["from", "to"]

  /** Every `base_field` the state holds is a scalar class, so a descriptor
      built from it terminates. */
  predicate ScalarBases(cs: ClassState) {
    Depth(cs.pointBase) == 0 && Depth(cs.rangeBase) == 0
  }

  /** `'0' * n` */
  function Zeros(n: nat): (z: string)
    ensures |z| == n
    ensures forall i :: 0 <= i < n ==> z[i] == '0'
  {
    if n == 0 then "" else Zeros(n - 1) + "0"
  }

  /** `f"0.{'0'*(precision-1)}1"`; Python repeats a string a negative number of times as "". */
  function StepString(precision: int): string {
    "0." + Zeros(if precision > 1 then precision - 1 else 0) + "1"
  }

  predicate AllDigits(s: string) {
    forall i :: 0 <= i < |s| ==> '0' <= s[i] <= '9'
  }

  /** The value of a string of decimal digits, read most significant first. */
  function DigitsValue(ds: string): nat
    requires AllDigits(ds)
  {
    if ds == [] then 0
    else DigitsValue(ds[..|ds| - 1]) * 10 + (ds[|ds| - 1] as int - '0' as int)
  }

  /** Reads a decimal `0.<digits>` as (numerator, number of fractional digits):
      the number it denotes is numerator / 10^digits. */
  function ReadFraction(s: string): Option<(nat, nat)> {
    if |s| >= 2 && s[..2] == "0." && AllDigits(s[2..])
    then Some((DigitsValue(s[2..]), |s| - 2))
    else None
  }

  lemma {:induction false} ZerosValue(n: nat)
    ensures AllDigits(Zeros(n)) && DigitsValue(Zeros(n)) == 0
  {
    if n > 0 {
      ZerosValue(n - 1);
      assert Zeros(n)[..n - 1] == Zeros(n - 1);
    }
  }

  /** For a positive precision p the step string denotes exactly 10^-p: one
      significant digit `1` in the p-th fractional place. A negative precision
      yields the step of precision 1. */
  lemma StepDenotesPrecision(p: int)
    ensures p > 0 ==> ReadFraction(StepString(p)) == Some((1, p))
    ensures p < 0 ==> StepString(p) == StepString(1)
  {
    var n := if p > 1 then p - 1 else 0;
    var ds := Zeros(n) + "1";
    assert StepString(p) == "0." + ds;
    assert StepString(p)[2..] == ds;
    ZerosValue(n);
    assert ds[..|ds| - 1] == Zeros(n);
  }

  /** `CollectionField.__new__` applied to a class whose `step` is `step`:
      returns the class's new (`base_field`, `step`). */
  function CollectionNew(step: Option<string>, precision: int): (r: (FieldClass, Option<string>))
    ensures r.0 == (if precision != 0 then FloatField else IntField)
    ensures Depth(r.0) == 0
    ensures precision == 0 ==> r.1 == step
    ensures precision != 0 ==> r.1 == Some(StepString(precision))
    ensures precision > 0 ==> r.1.Some? && ReadFraction(r.1.value) == Some((1, precision))
  {
    StepDenotesPrecision(precision);
    (if precision != 0 then FloatField else IntField,
     if precision != 0 then Some(StepString(precision)) else step)
  }

  /** `PointField(precision)`: only the point attributes change. */
  function ConstructPoint(cs: ClassState, precision: int): (r: ClassState)
    ensures r.pointBase == (if precision != 0 then FloatField else IntField)
    ensures precision == 0 ==> r.pointStep == cs.pointStep
    ensures precision != 0 ==> r.pointStep == Some(StepString(precision))
    ensures r.rangeBase == cs.rangeBase && r.rangeStep == cs.rangeStep
    ensures r.rangeSqlType == cs.rangeSqlType
    ensures ScalarBases(cs) ==> ScalarBases(r)
  {
    var (base, step) := CollectionNew(cs.pointStep, precision);
    cs.(pointBase := base, pointStep := step)
  }

  /** `RangeField(precision)` as written: `RangeField.__new__` sets `SQL_TYPE`
      and then calls `super().__new__(cls)` WITHOUT the precision, so
      `CollectionField.__new__` always runs with its default precision 0. */
  function ConstructRangeAsWritten(cs: ClassState, precision: int): (r: ClassState)
    ensures r.rangeSqlType == Some(if precision != 0 then "numrange" else "int4range")
    ensures r.rangeBase == IntField && r.rangeStep == cs.rangeStep
    ensures r.pointBase == cs.pointBase && r.pointStep == cs.pointStep
    ensures ScalarBases(cs) ==> ScalarBases(r)
  {
    var withSql := cs.(rangeSqlType := Some(if precision != 0 then "numrange" else "int4range"));
    var (base, step) := CollectionNew(withSql.rangeStep, 0);
    withSql.(rangeBase := base, rangeStep := step)
  }

  /** A range declared with precision 2 gets a `numrange` column, yet its
      components are still integers and it has no step. */
  lemma RangePrecisionIgnored()
    ensures var r := ConstructRangeAsWritten(Declared, 2);
            r.rangeSqlType == Some("numrange") && r.rangeBase == IntField && r.rangeStep == None
  {
  }

  /** `RangeField(precision)` with the precision forwarded to
      `CollectionField.__new__`: the SQL type, the component class and the
      step all follow the precision. */
  function ConstructRange(cs: ClassState, precision: int): (r: ClassState)
    ensures r.rangeSqlType == Some(if precision != 0 then "numrange" else "int4range")
    ensures r.rangeBase == (if precision != 0 then FloatField else IntField)
    ensures precision == 0 ==> r.rangeStep == cs.rangeStep
    ensures precision != 0 ==> r.rangeStep == Some(StepString(precision))
    ensures precision > 0 ==> r.rangeStep.Some? && ReadFraction(r.rangeStep.value) == Some((1, precision))
    ensures r.pointBase == cs.pointBase && r.pointStep == cs.pointStep
    ensures ScalarBases(cs) ==> ScalarBases(r)
  {
    var withSql := cs.(rangeSqlType := Some(if precision != 0 then "numrange" else "int4range"));
    var (base, step) := CollectionNew(withSql.rangeStep, precision);
    withSql.(rangeBase := base, rangeStep := step)
  }

  /** One composite field constructed while the model classes are declared. */
  datatype Construction = NewPoint(precision: int) | NewRange(precision: int)

  /** The class attributes after the constructions, in declaration order.
      With `forwarded` false a range is constructed as the code is written;
      with `forwarded` true its precision reaches `CollectionField.__new__`. */
  function Declare(cs: ClassState, cons: seq<Construction>, forwarded: bool): ClassState {
    if cons == [] then cs
    else
      var last := cons[|cons| - 1];
      var before := Declare(cs, cons[..|cons| - 1], forwarded);
      match last
      case NewPoint(p) => ConstructPoint(before, p)
      case NewRange(p) => if forwarded then ConstructRange(before, p) else ConstructRangeAsWritten(before, p)
  }

  /** Declaring fields never leaves a composite class as a `base_field`, both
      as the code is written and with the range precision forwarded. */
  lemma {:induction false} DeclareKeepsScalarBases(cs: ClassState, cons: seq<Construction>, forwarded: bool)
    requires ScalarBases(cs)
    ensures ScalarBases(Declare(cs, cons, forwarded))
  {
    if cons != [] {
      DeclareKeepsScalarBases(cs, cons[..|cons| - 1], forwarded);
    }
  }

  /** The class attribute is shared: every point field's base is decided by the
      LAST point constructed, whatever precision the others were declared with. */
  lemma {:induction false} LastPointDecides(cs: ClassState, cons: seq<Construction>, forwarded: bool, i: int)
    requires 0 <= i < |cons| && cons[i].NewPoint?
    requires forall j :: i < j < |cons| ==> cons[j].NewRange?
    ensures Declare(cs, cons, forwarded).pointBase == (if cons[i].precision != 0 then FloatField else IntField)
  {
    if i < |cons| - 1 {
      var init := cons[..|cons| - 1];
      assert init[i] == cons[i];
      LastPointDecides(cs, init, forwarded, i);
    }
  }

  /** Once a point precision set a step, a later point with precision 0 keeps that
      step although its components become integers. */
  lemma PointStepSticks(cs: ClassState, p: int)
    requires p != 0
    ensures var r := ConstructPoint(ConstructPoint(cs, p), 0);
            r.pointBase == IntField && r.pointStep == Some(StepString(p))
  {
  }

  /** The asyncpg types the composite fields convert to. */
  datatype PgType = PgPoint | PgPolygon | PgRange

  /** A Python value handed to `to_python_value`: `None`, a plain sequence of
      components, or an instance of one of the asyncpg types. */
  datatype PyValue<A> = PyNone | Items(items: seq<A>) | Pg(of: PgType, args: seq<A>)

  /** The components `*value` unpacks. */
  function Unpack<A>(v: PyValue<A>): seq<A>
    requires !v.PyNone?
  {
    match v
    case Items(xs) => xs
    case Pg(_, xs) => xs
  }

  /** `ListField.to_python_value` for a field whose `field_type` is `ft`. */
  function ToPythonValue<A>(ft: PgType, v: PyValue<A>): (r: PyValue<A>)
    ensures r.PyNone? <==> v.PyNone?
    ensures !r.PyNone? ==> r.Pg? && r.of == ft && Unpack(r) == Unpack(v)
    ensures v.Pg? && v.of == ft ==> r == v
  {
    if !v.PyNone? && !(v.Pg? && v.of == ft) then Pg(ft, Unpack(v)) else v
  }

  /** `RangeField.to_python_value`: like the list version, but each unpacked
      component is converted first (`float(v)`, here an opaque `convert`). */
  function RangeToPythonValue<A>(v: PyValue<A>, convert: A -> A): (r: PyValue<A>)
    ensures r.PyNone? <==> v.PyNone?
    ensures !r.PyNone? ==> r.Pg? && r.of == PgRange && |Unpack(r)| == |Unpack(v)|
    ensures v.Pg? && v.of == PgRange ==> r == v
    ensures !v.PyNone? && !(v.Pg? && v.of == PgRange) ==>
      forall i :: 0 <= i < |Unpack(v)| ==> Unpack(r)[i] == convert(Unpack(v)[i])
  {
    if !v.PyNone? && !(v.Pg? && v.of == PgRange)
    then Pg(PgRange, seq(|Unpack(v)|, i requires 0 <= i < |Unpack(v)| => convert(Unpack(v)[i])))
    else v
  }

  /** Converting twice is converting once: the first result is already of the field type. */
  lemma ToPythonValueIdempotent<A>(ft: PgType, v: PyValue<A>, convert: A -> A)
    ensures ToPythonValue(ft, ToPythonValue(ft, v)) == ToPythonValue(ft, v)
    ensures RangeToPythonValue(RangeToPythonValue(v, convert), convert) == RangeToPythonValue(v, convert)
  {
  }
}

=== FILE: options.dfy ===
/** The representation of a record and the relation option maps built from
    it (`Model.repr`, `load_rel_options`, `_rel_pack`), and the branch table
    of `with_rels`. */
module Options {
  import opened Values
  import opened Storage

  /** What `repr` and `_rel_pack` read from a model class: its class name,
      the table its rows live in, the `_name` attribute and the database fields. */
  datatype ModelInfo = ModelInfo(className: string, table: string, nameAttr: string, dbFields: set<string>)

  /** A relation option map: primary key (or `''`) to a record's representation. */
  type OptionMap = map<Val, Val>

  /** `repr()` of the row `pk`: the value of the `_name` attribute when that is
      a database field, otherwise the default representation. */
  function Repr(m: ModelInfo, pk: int, rec: Record): (r: Val)
    ensures m.nameAttr in m.dbFields && m.nameAttr in rec ==> r == rec[m.nameAttr]
    ensures m.nameAttr in m.dbFields && m.nameAttr !in rec ==> r == Null
    ensures m.nameAttr !in m.dbFields ==> r == DefaultRepr(m.className, pk)
  {
    if m.nameAttr in m.dbFields then Attr(rec, m.nameAttr) else DefaultRepr(m.className, pk)
  }

  /** `getattr(obj, name)` on a row: an unset attribute reads as `None`. */
  function Attr(rec: Record, name: string): Val {
    if name in rec then rec[name] else Null
  }

  /** One entry of `_meta.fetch_fields`: the relation's key, its nullability and
      the related model. */
  datatype FetchField = FetchField(name: string, nullable: bool, related: ModelInfo)

  /** `{**first, **{x.pk: await x.repr() for x in related_model.all()}}`. */
  function RelOptions(f: FetchField, s: Store): (o: OptionMap)
    ensures o.Keys == (if f.nullable then {Str("")} else {}) + PkKeys(Rows(s, f.related.table))
    ensures f.nullable ==> o[Str("")] == Str("Empty")
    ensures forall pk :: pk in Rows(s, f.related.table) ==>
      o[Int(pk)] == Repr(f.related, pk, Rows(s, f.related.table)[pk])
  {
    var first: OptionMap := if f.nullable then map[Str("") := Str("Empty")] else map[];
    var rows := Rows(s, f.related.table);
    var reprs: OptionMap := map pk | pk in rows.Keys :: Int(pk) := Repr(f.related, pk, rows[pk]);
    first + reprs
  }

  /** The option keys of a table's rows: their primary keys. */
  function PkKeys(rows: Table): set<Val> {
    set pk | pk in rows.Keys :: Int(pk)
  }

  /** `load_rel_options`: one option map per fetch field, keyed by its name
      (a later entry with the same name overwrites an earlier one). */
  function LoadRelOptions(fetch: seq<FetchField>, s: Store): (res: map<string, OptionMap>)
    ensures forall i :: 0 <= i < |fetch| && LastName(fetch, i) ==>
      fetch[i].name in res && res[fetch[i].name] == RelOptions(fetch[i], s)
    ensures res.Keys == set i | 0 <= i < |fetch| :: fetch[i].name
  {
    OptionsFor(ByName(fetch), s)
  }

  function OptionsFor(byName: map<string, FetchField>, s: Store): (res: map<string, OptionMap>)
    ensures res.Keys == byName.Keys
    ensures forall k :: k in byName ==> res[k] == RelOptions(byName[k], s)
  {
    map k | k in byName.Keys :: RelOptions(byName[k], s)
  }

  /** The loaded map of a relation offers the empty choice exactly when the
      relation is nullable, and every related row under its primary key. */
  lemma LoadedOptions(fetch: seq<FetchField>, s: Store, i: int)
    requires 0 <= i < |fetch| && LastName(fetch, i)
    ensures fetch[i].name in LoadRelOptions(fetch, s)
    ensures var o := LoadRelOptions(fetch, s)[fetch[i].name];
      && (Str("") in o <==> fetch[i].nullable)
      && (fetch[i].nullable ==> o[Str("")] == Str("Empty"))
      && (forall pk :: pk in Rows(s, fetch[i].related.table) ==>
            Int(pk) in o && o[Int(pk)] == Repr(fetch[i].related, pk, Rows(s, fetch[i].related.table)[pk]))
  {
    var o := LoadRelOptions(fetch, s)[fetch[i].name];
    assert o == RelOptions(fetch[i], s);
    var rows := Rows(s, fetch[i].related.table);
    assert forall pk :: pk in rows ==> Int(pk) in PkKeys(rows);
  }

  /** The fetch fields by name; a later field of the same name wins. */
  function ByName(fetch: seq<FetchField>): (m: map<string, FetchField>)
    ensures m.Keys == set i | 0 <= i < |fetch| :: fetch[i].name
    ensures forall i :: 0 <= i < |fetch| && LastName(fetch, i) ==> m[fetch[i].name] == fetch[i]
  {
    var pairs := seq(|fetch|, i requires 0 <= i < |fetch| => (fetch[i].name, fetch[i]));
    assert forall i :: 0 <= i < |fetch| ==> pairs[i].0 == fetch[i].name;
    assert forall i :: 0 <= i < |fetch| && LastName(fetch, i) ==> LastWith(pairs, i);
    assert (set i | 0 <= i < |pairs| :: pairs[i].0) == set i | 0 <= i < |fetch| :: fetch[i].name;
    Dict(pairs)
  }

  /** No fetch field after position `i` has the same name. */
  predicate LastName(fetch: seq<FetchField>, i: int)
    requires 0 <= i < |fetch|
  {
    forall j :: i < j < |fetch| ==> fetch[j].name != fetch[i].name
  }

  /** A stored row as a live object: its model, primary key and attributes. */
  datatype Obj = Obj(info: ModelInfo, pk: int, rec: Record)

  /** `_rel_pack()`: `{'id': ..., 'type': ..., 'repr': ...}`. */
  datatype RelPack = RelPack(id: int, typ: string, repr: Val)

  function Pack(o: Obj): (p: RelPack)
    ensures p.id == o.pk && p.typ == o.info.className
    ensures p.repr == Repr(o.info, o.pk, o.rec)
  {
    RelPack(o.pk, o.info.className, Repr(o.info, o.pk, o.rec))
  }

  /** What an attribute of a live object holds when `with_rels` reads it. */
  datatype Prop =
    | Value(v: Val)               // a plain value; `Value(Null)` is `None` like `NoneProp`
    | Instance(o: Obj)            // a loaded related instance
    | Related(objs: seq<Obj>)     // a reverse relation whose related objects are fetched
    | Unfetched                   // a relation whose objects are not loaded
    | NoneProp                    // a relation holding `None`

  /** What `with_rels` shows for one attribute. */
  datatype Shown = Plain(v: Val) | One(p: RelPack) | Many(ps: seq<RelPack>) | EmptyText | Nothing

  /** `check(field, key)`: relational attributes are packed, others shown as they are. */
  function Check(relational: bool, prop: Prop): (r: Shown)
    ensures !relational && prop.Value? ==> r == Plain(prop.v)
    ensures relational ==> !r.Plain?
    ensures relational && prop.Related? ==>
      (r.Many? && |r.ps| == |prop.objs| &&
       forall i :: 0 <= i < |prop.objs| ==> r.ps[i] == Pack(prop.objs[i]))
    ensures relational && prop.Instance? ==> r == One(Pack(prop.o))
    ensures relational && (prop.NoneProp? || prop == Value(Null)) ==> r == EmptyText
    ensures relational && (prop.Unfetched? || (prop.Value? && prop.v != Null)) ==> r == Nothing
    ensures !relational && prop.NoneProp? ==> r == Plain(Null)
  {
    if relational then
      match prop
      case Instance(o) => One(Pack(o))
      case Related(objs) => Many(seq(|objs|, i requires 0 <= i < |objs| => Pack(objs[i])))
      case NoneProp => EmptyText
      case Value(v) => if v == Null then EmptyText else Nothing
      case Unfetched => Nothing
    else
      match prop
      case Value(v) => Plain(v)
      case NoneProp => Plain(Null)
      case _ => Nothing
  }

  /** `None` is shown the same whether it is read as a plain value or as an
      empty relation: as it is for an ordinary attribute, as `''` for a relation. */
  lemma CheckNoneEitherWay(relational: bool)
    ensures Check(relational, NoneProp) == Check(relational, Value(Null))
    ensures Check(relational, NoneProp) == (if relational then EmptyText else Plain(Null))
  {
  }

  /** `with_rels()`: one entry per attribute whose key does not end in `_id`. */
  function WithRels(attrs: seq<(string, bool, Prop)>): (r: map<string, Shown>)
    ensures r.Keys == set i | 0 <= i < |attrs| && !EndsWith(attrs[i].0, "_id") :: attrs[i].0
    ensures forall i :: 0 <= i < |attrs| && !EndsWith(attrs[i].0, "_id") && LastKeyed(attrs, i) ==>
      r[attrs[i].0] == Check(attrs[i].1, attrs[i].2)
  {
    var entries := seq(|attrs|, i requires 0 <= i < |attrs| =>
      (attrs[i].0, !EndsWith(attrs[i].0, "_id"), Check(attrs[i].1, attrs[i].2)));
    assert forall i :: 0 <= i < |attrs| ==> entries[i].0 == attrs[i].0 && entries[i].1 == !EndsWith(attrs[i].0, "_id");
    assert forall i :: 0 <= i < |attrs| && LastKeyed(attrs, i) ==> LastKeyed(entries, i);
    assert (set i | 0 <= i < |entries| && entries[i].1 :: entries[i].0)
        == (set i | 0 <= i < |attrs| && !EndsWith(attrs[i].0, "_id") :: attrs[i].0);
    Comprehension(entries)
  }

  /** The label `with_rels` shows for a related row is the option label
      `load_rel_options` loaded for it under the relation's key. */
  lemma PackMatchesOption(fetch: seq<FetchField>, s: Store, i: int, o: Obj)
    requires 0 <= i < |fetch| && LastName(fetch, i)
    requires o.info == fetch[i].related && o.pk in Rows(s, o.info.table) && o.rec == Rows(s, o.info.table)[o.pk]
    ensures var options := LoadRelOptions(fetch, s);
      fetch[i].name in options && Int(Pack(o).id) in options[fetch[i].name] &&
      options[fetch[i].name][Int(Pack(o).id)] == Pack(o).repr
  {
    LoadedOptions(fetch, s, i);
  }
}

=== FILE: storage.dfy ===
/** The persistent store the ORM runtime stands for, as immutable maps:
    records by model and primary key, and many-to-many association sets. */
module Storage {
  import opened Values

  /** One stored row: attribute name to value. */
  type Record = map<string, Val>

  /** The rows of one model, by primary key. */
  type Table = map<int, Record>

  /** The many-to-many relation `rel` of the record `pk` of `model`. */
  datatype Link = Link(model: string, pk: int, rel: string)

  datatype Store = Store(tables: map<string, Table>, links: map<Link, set<int>>)

  /** The rows of a model; a model without rows has an empty table. */
  function Rows(s: Store, model: string): Table {
    if model in s.tables then s.tables[model] else map[]
  }

  /** The primary keys currently associated through a many-to-many link. */
  function Linked(s: Store, l: Link): set<int> {
    if l in s.links then s.links[l] else {}
  }

  /** Saves one row; no other row and no association changes. */
  function Put(s: Store, model: string, pk: int, rec: Record): (r: Store)
    ensures Rows(r, model) == Rows(s, model)[pk := rec]
    ensures forall m :: m != model ==> Rows(r, m) == Rows(s, m)
    ensures r.links == s.links
  {
    s.(tables := s.tables[model := Rows(s, model)[pk := rec]])
  }

  /** Replaces a model's table; no other table and no association changes. */
  function PutTable(s: Store, model: string, t: Table): (r: Store)
    ensures Rows(r, model) == t
    ensures forall m :: m != model ==> Rows(r, m) == Rows(s, m)
    ensures r.links == s.links
  {
    s.(tables := s.tables[model := t])
  }

  /** Adds associations (`.add(*items)`): never removes one, touches no row. */
  function AddLinks(s: Store, l: Link, pks: set<int>): (r: Store)
    ensures Linked(r, l) == Linked(s, l) + pks
    ensures forall l' :: l' != l ==> Linked(r, l') == Linked(s, l')
    ensures r.tables == s.tables
  {
    s.(links := s.links[l := Linked(s, l) + pks])
  }

  function KeysFrom(keys: set<int>, k: int): set<int> {
    set x | x in keys && x >= k
  }

  /** The least key at or above `k` that is not taken. */
  function FreeFrom(keys: set<int>, k: int): (r: int)
    ensures r >= k && r !in keys
    ensures forall x :: k <= x < r ==> x in keys
    decreases |KeysFrom(keys, k)|
  {
    if k !in keys then k
    else
      assert KeysFrom(keys, k) == KeysFrom(keys, k + 1) + {k};
      FreeFrom(keys, k + 1)
  }

  /** The primary key the store assigns to a created row: a positive key no row uses. */
  function FreshPk(t: Table): (pk: int)
    ensures pk !in t && pk > 0
  {
    FreeFrom(t.Keys, 1)
  }
}

=== FILE: upsert.dfy ===
/** `Model.upsert(data, oid)`: the relation keys are popped out of the payload
    into three buckets (many-to-many, backward foreign key, backward
    one-to-one), the remaining scalar fields are written, then each bucket is
    applied in turn. Nothing runs in a transaction: when a lookup raises, the
    writes already made stay. */
module Upsert {
  import opened Wrappers
  import opened Values
  import opened Storage

  /** A relation of the model: its attribute name, the model it points to, and
      (for a backward foreign key) the foreign-key field on that model. */
  datatype Rel = Rel(name: string, target: string, relationField: string)

  /** What `upsert` reads from `cls._meta`: the model (its table in the store),
      `db_table`, and the three relation collections in iteration order. */
  datatype Meta = Meta(model: string, dbTable: string, m2m: seq<Rel>, bfk: seq<Rel>, bo2o: seq<Rel>)

  /** A popped relation entry: the relation and the payload value under its name. */
  datatype Edge = Edge(rel: Rel, value: Val)

  /** The payload: field name to value. */
  type Data = map<string, Val>

  /** Why `upsert` raised: a value that is not a list of ids, or an id with no
      row (`remote_model[i]` raises `DoesNotExist`). */
  datatype Failure = NotIterable(rel: string, value: Val) | NotFound(rel: string, id: Val)

  /** The outcome of `upsert`: the saved object's primary key and the store,
      or the exception together with the store as it was left. `data` is what
      the caller's own payload dictionary holds afterwards, since the relation
      keys are popped out of it in place. */
  datatype Outcome =
    | Saved(s: Store, pk: int, data: Data)
    | Raised(failure: Failure, s: Store, pk: int, data: Data)

  /** The outcome of applying one bucket. */
  datatype Step = Done(s: Store) | Failed(failure: Failure, s: Store)

  function Names(rels: seq<Rel>): set<string> {
    set i | 0 <= i < |rels| :: rels[i].name
  }

  function EdgeNames(edges: seq<Edge>): set<string> {
    set i | 0 <= i < |edges| :: edges[i].rel.name
  }

  /** No two edges carry the same relation name. */
  predicate DistinctEdges(edges: seq<Edge>) {
    forall i, j :: 0 <= i < j < |edges| ==> edges[i].rel.name != edges[j].rel.name
  }

  /** No relation before position `i` has the same name. */
  predicate FirstRel(rels: seq<Rel>, i: int)
    requires 0 <= i < |rels|
  {
    forall j :: 0 <= j < i ==> rels[j].name != rels[i].name
  }

  /** `{k: data.pop(k) for k in rels if k in data}`: the popped entries, in
      relation order, and what is left of the payload. */
  function Pop(rels: seq<Rel>, data: Data): (r: (seq<Edge>, Data))
    ensures r.1.Keys == data.Keys - Names(rels)
    ensures forall k :: k in r.1 ==> r.1[k] == data[k]
    ensures forall i :: 0 <= i < |r.0| ==> r.0[i].rel.name in data && r.0[i].value == data[r.0[i].rel.name]
    ensures EdgeNames(r.0) == data.Keys * Names(rels)
    ensures DistinctEdges(r.0)
  {
    (Popped(rels, data), data - Names(rels))
  }

  /** The entries popped one relation at a time: a name already popped is no
      longer in the payload. */
  function Popped(rels: seq<Rel>, data: Data): (edges: seq<Edge>)
    ensures forall i :: 0 <= i < |edges| ==> edges[i].rel.name in data && edges[i].value == data[edges[i].rel.name]
    ensures forall i :: 0 <= i < |edges| ==> edges[i].rel in rels
    ensures EdgeNames(edges) == data.Keys * Names(rels)
    ensures DistinctEdges(edges)
  {
    if rels == [] then []
    else
      var name := rels[0].name;
      var tail := rels[1..];
      assert forall i :: 1 <= i < |rels| ==> tail[i - 1] == rels[i];
      assert Names(rels) == {name} + Names(tail);
      if name in data then
        var rest := Popped(tail, data - {name});
        assert forall i :: 0 <= i < |rest| ==> rest[i].rel.name != name;
        PrependEdge(Edge(rels[0], data[name]), rest)
      else
        Popped(tail, data)
  }

  /** One more edge in front of a list that does not carry its name. */
  function PrependEdge(e: Edge, edges: seq<Edge>): (r: seq<Edge>)
    requires forall i :: 0 <= i < |edges| ==> edges[i].rel.name != e.rel.name
    requires DistinctEdges(edges)
    ensures r == [e] + edges
    ensures EdgeNames(r) == {e.rel.name} + EdgeNames(edges)
    ensures DistinctEdges(r)
  {
    var r := [e] + edges;
    assert forall i :: 1 <= i < |r| ==> r[i] == edges[i - 1];
    assert r[0] == e;
    assert forall i :: 0 <= i < |edges| ==> r[i + 1].rel.name == edges[i].rel.name;
    r
  }

  /** Each relation named in the payload is popped with the payload's value. */
  lemma {:induction false} PoppedComplete(rels: seq<Rel>, data: Data, i: int)
    requires 0 <= i < |rels| && rels[i].name in data && FirstRel(rels, i)
    ensures Edge(rels[i], data[rels[i].name]) in Popped(rels, data)
  {
    var name := rels[0].name;
    var tail := rels[1..];
    if i > 0 {
      assert tail[i - 1] == rels[i];
      assert rels[i].name != name;
      if name in data {
        PoppedComplete(tail, data - {name}, i - 1);
      } else {
        PoppedComplete(tail, data, i - 1);
      }
    }
  }

  /** The three buckets and the scalar payload, popped in the order `upsert` pops them. */
  datatype Buckets = Buckets(m2m: seq<Edge>, bfk: seq<Edge>, bo2o: seq<Edge>, scalars: Data)

  function Split(meta: Meta, data: Data): (b: Buckets)
    ensures b.scalars.Keys == data.Keys - Names(meta.m2m) - Names(meta.bfk) - Names(meta.bo2o)
    ensures forall k :: k in b.scalars ==> b.scalars[k] == data[k]
  {
    var (m, d1) := Pop(meta.m2m, data);
    var (b, d2) := Pop(meta.bfk, d1);
    var (o, d3) := Pop(meta.bo2o, d2);
    Buckets(m, b, o, d3)
  }

  /** Every payload key lands in exactly one place: one bucket or the scalars. */
  lemma SplitPartitions(meta: Meta, data: Data)
    ensures var b := Split(meta, data);
      && EdgeNames(b.m2m) + EdgeNames(b.bfk) + EdgeNames(b.bo2o) + b.scalars.Keys == data.Keys
      && EdgeNames(b.m2m) !! EdgeNames(b.bfk)
      && EdgeNames(b.m2m) !! EdgeNames(b.bo2o)
      && EdgeNames(b.bfk) !! EdgeNames(b.bo2o)
      && EdgeNames(b.m2m) + EdgeNames(b.bfk) + EdgeNames(b.bo2o) !! b.scalars.Keys
    ensures var b := Split(meta, data);
      && EdgeNames(b.m2m) == data.Keys * Names(meta.m2m)
      && EdgeNames(b.bfk) == (data.Keys - Names(meta.m2m)) * Names(meta.bfk)
      && EdgeNames(b.bo2o) == (data.Keys - Names(meta.m2m) - Names(meta.bfk)) * Names(meta.bo2o)
    ensures var b := Split(meta, data);
      && (forall i :: 0 <= i < |b.m2m| ==> b.m2m[i].value == data[b.m2m[i].rel.name])
      && (forall i :: 0 <= i < |b.bfk| ==> b.bfk[i].value == data[b.bfk[i].rel.name])
      && (forall i :: 0 <= i < |b.bo2o| ==> b.bo2o[i].value == data[b.bo2o[i].rel.name])
    ensures var b := Split(meta, data);
      && DistinctEdges(b.m2m) && DistinctEdges(b.bfk) && DistinctEdges(b.bo2o)
  {
  }

  /** Splitting the scalars again pops nothing: no relation key is left in them. */
  lemma SplitIdempotent(meta: Meta, data: Data)
    ensures var b := Split(meta, data);
      Split(meta, b.scalars) == Buckets([], [], [], b.scalars)
  {
    var b := Split(meta, data);
    NoPop(meta.m2m, b.scalars);
    NoPop(meta.bfk, b.scalars);
    NoPop(meta.bo2o, b.scalars);
  }

  /** Popping names the payload does not hold changes nothing. */
  lemma NoPop(rels: seq<Rel>, data: Data)
    requires data.Keys !! Names(rels)
    ensures Pop(rels, data) == ([], data)
  {
    NothingPopped(rels, data);
    assert data - Names(rels) == data;
  }

  lemma {:induction false} NothingPopped(rels: seq<Rel>, data: Data)
    requires data.Keys !! Names(rels)
    ensures Popped(rels, data) == []
  {
    if rels != [] {
      assert rels[0].name in Names(rels);
      assert forall i :: 1 <= i < |rels| ==> rels[1..][i - 1] == rels[i];
      assert Names(rels[1..]) <= Names(rels);
      NothingPopped(rels[1..], data);
    }
  }

  /** Python truthiness of `oid`: `None` and `0` are false. */
  predicate Truthy(oid: Option<int>) {
    oid.Some? && oid.value != 0
  }

  /** The scalar write: with a truthy `oid`, `update_or_create` updates the row
      `oid` or creates it under that key; otherwise `create` stores a new row
      under a key the store picks. */
  function WriteScalar(s: Store, model: string, data: Data, oid: Option<int>): (r: (Store, int))
    ensures Truthy(oid) ==> r.1 == oid.value
    ensures !Truthy(oid) ==> r.1 !in Rows(s, model) && r.1 > 0
    ensures Rows(r.0, model).Keys == Rows(s, model).Keys + {r.1}
    ensures forall k :: k in data ==> k in Rows(r.0, model)[r.1] && Rows(r.0, model)[r.1][k] == data[k]
    ensures forall k :: r.1 in Rows(s, model) && k in Rows(s, model)[r.1] && k !in data ==>
      k in Rows(r.0, model)[r.1] && Rows(r.0, model)[r.1][k] == Rows(s, model)[r.1][k]
    ensures r.1 in Rows(s, model) ==> Rows(r.0, model)[r.1].Keys == Rows(s, model)[r.1].Keys + data.Keys
    ensures r.1 !in Rows(s, model) ==> Rows(r.0, model)[r.1] == data
    ensures forall pk :: pk in Rows(s, model) && pk != r.1 ==> Rows(r.0, model)[pk] == Rows(s, model)[pk]
    ensures forall m :: m != model ==> Rows(r.0, m) == Rows(s, m)
    ensures r.0.links == s.links
  {
    var rows := Rows(s, model);
    if Truthy(oid) then
      var pk := oid.value;
      var rec := if pk in rows then rows[pk] + data else data;
      (Put(s, model, pk, rec), pk)
    else
      var pk := FreshPk(rows);
      (Put(s, model, pk, data), pk)
  }

  /** Writing the same scalars to the same truthy `oid` again changes nothing. */
  lemma WriteScalarIdempotent(s: Store, model: string, data: Data, oid: Option<int>)
    requires Truthy(oid)
    ensures var w := WriteScalar(s, model, data, oid);
      WriteScalar(w.0, model, data, oid) == w
  {
    var w := WriteScalar(s, model, data, oid);
    var w2 := WriteScalar(w.0, model, data, oid);
    var pk := oid.value;
    assert Rows(w2.0, model)[pk] == Rows(w.0, model)[pk];
    assert Rows(w2.0, model) == Rows(w.0, model);
    assert w2.0.tables == w.0.tables;
  }

  /** `remote_model[i]` finds a row: the id is an integer key of the table. */
  predicate Found(rows: Table, id: Val) {
    id.Int? && id.i in rows
  }

  /** The integer ids a payload value lists. */
  function Ids(v: Val): set<int> {
    if v.List? then set i | 0 <= i < |v.items| && v.items[i].Int? :: v.items[i].i else {}
  }

  /** Every id of a list-valued relation entry has a row in its target. */
  predicate Resolvable(s: Store, e: Edge) {
    e.value.List? && forall i :: 0 <= i < |e.value.items| ==> Found(Rows(s, e.rel.target), e.value.items[i])
  }

  /** `[await remote_model[i] for i in ids]`: every id is looked up before
      anything is written; the first missing one raises. */
  function Resolve(s: Store, e: Edge): (r: Result<set<int>, Failure>)
    ensures r.Ok? <==> Resolvable(s, e)
    ensures r.Ok? ==> r.value == Ids(e.value) && r.value <= Rows(s, e.rel.target).Keys
    ensures r.Err? && e.value.List? ==>
      r.error.NotFound? && r.error.rel == e.rel.name && r.error.id in e.value.items &&
      !Found(Rows(s, e.rel.target), r.error.id)
    ensures r.Err? && !e.value.List? ==> r.error == NotIterable(e.rel.name, e.value)
  {
    if !e.value.List? then Err(NotIterable(e.rel.name, e.value))
    else LookUp(Rows(s, e.rel.target), e.rel.name, e.value.items)
  }

  function LookUp(rows: Table, name: string, ids: seq<Val>): (r: Result<set<int>, Failure>)
    ensures r.Ok? <==> forall i :: 0 <= i < |ids| ==> Found(rows, ids[i])
    ensures r.Ok? ==> r.value == (set i | 0 <= i < |ids| && ids[i].Int? :: ids[i].i)
    ensures r.Err? ==> r.error.NotFound? && r.error.rel == name && r.error.id in ids && !Found(rows, r.error.id)
  {
    if ids == [] then Ok({})
    else if !Found(rows, ids[0]) then Err(NotFound(name, ids[0]))
    else
      var rest := LookUp(rows, name, ids[1..]);
      assert forall i :: 1 <= i < |ids| ==> ids[1..][i - 1] == ids[i];
      if rest.Err? then rest
      else
        assert (set i | 0 <= i < |ids| && ids[i].Int? :: ids[i].i) ==
          {ids[0].i} + (set i | 0 <= i < |ids[1..]| && ids[1..][i].Int? :: ids[1..][i].i);
        Ok({ids[0].i} + rest.value)
  }

  /** `await m2m_rel.add(*items)` for each entry in turn. */
  function ApplyM2M(s: Store, model: string, pk: int, edges: seq<Edge>): (r: Step)
    ensures r.s.tables == s.tables
    ensures forall l :: Linked(s, l) <= Linked(r.s, l)
    ensures forall l: Link :: l.model != model || l.pk != pk || l.rel !in EdgeNames(edges) ==> Linked(r.s, l) == Linked(s, l)
    ensures r.Done? <==> forall i :: 0 <= i < |edges| ==> Resolvable(s, edges[i])
    decreases |edges|
  {
    if edges == [] then Done(s)
    else
      var e := edges[0];
      assert forall i :: 1 <= i < |edges| ==> edges[1..][i - 1] == edges[i];
      assert EdgeNames(edges) == {e.rel.name} + EdgeNames(edges[1..]);
      match Resolve(s, e)
      case Err(f) => Failed(f, s)
      case Ok(ids) =>
        var s' := AddLinks(s, Link(model, pk, e.rel.name), ids);
        SameKeysResolve(s, s', edges[1..]);
        ApplyM2M(s', model, pk, edges[1..])
  }

  /** `add` only adds: once every entry is applied, each relation of the saved
      row is associated with what it had plus the ids its entry lists. */
  lemma {:induction false} M2MAdds(s: Store, model: string, pk: int, edges: seq<Edge>)
    requires ApplyM2M(s, model, pk, edges).Done? && DistinctEdges(edges)
    ensures forall i :: 0 <= i < |edges| ==>
      Linked(ApplyM2M(s, model, pk, edges).s, Link(model, pk, edges[i].rel.name)) ==
      Linked(s, Link(model, pk, edges[i].rel.name)) + Ids(edges[i].value)
    decreases |edges|
  {
    if edges != [] {
      var e := edges[0];
      var tail := edges[1..];
      assert forall i :: 1 <= i < |edges| ==> tail[i - 1] == edges[i];
      var s' := AddLinks(s, Link(model, pk, e.rel.name), Resolve(s, e).value);
      assert ApplyM2M(s, model, pk, edges) == ApplyM2M(s', model, pk, tail);
      assert DistinctEdges(tail);
      M2MAdds(s', model, pk, tail);
      var own := Link(model, pk, e.rel.name);
      assert e.rel.name !in EdgeNames(tail);
      assert Linked(ApplyM2M(s', model, pk, tail).s, own) == Linked(s', own);
      forall i | 1 <= i < |edges|
        ensures Linked(s', Link(model, pk, edges[i].rel.name)) == Linked(s, Link(model, pk, edges[i].rel.name))
      {
        assert edges[i].rel.name != e.rel.name;
      }
    }
  }

  /** All ids of an entry are looked up before `add`: an entry with a missing
      id leaves its association as it was. */
  lemma {:induction false} M2MMissingIdAddsNothing(s: Store, model: string, pk: int, edges: seq<Edge>, i: int)
    requires DistinctEdges(edges) && 0 <= i < |edges| && !Resolvable(s, edges[i])
    ensures Linked(ApplyM2M(s, model, pk, edges).s, Link(model, pk, edges[i].rel.name)) ==
      Linked(s, Link(model, pk, edges[i].rel.name))
    decreases |edges|
  {
    var e := edges[0];
    var tail := edges[1..];
    if i > 0 {
      var res := Resolve(s, e);
      if res.Ok? {
        var l := Link(model, pk, edges[i].rel.name);
        var s' := AddLinks(s, Link(model, pk, e.rel.name), res.value);
        assert ApplyM2M(s, model, pk, edges) == ApplyM2M(s', model, pk, tail);
        assert DistinctEdges(tail) && tail[i - 1] == edges[i] && !Resolvable(s', tail[i - 1]) by {
          assert forall j :: 1 <= j < |edges| ==> tail[j - 1] == edges[j];
          assert Rows(s', edges[i].rel.target) == Rows(s, edges[i].rel.target);
        }
        assert Linked(s', l) == Linked(s, l) by {
          assert edges[i].rel.name != e.rel.name;
        }
        M2MMissingIdAddsNothing(s', model, pk, tail, i - 1);
      }
    }
  }

  /** Sets attribute `field` of the listed rows of a table; other rows stay. */
  function SetField(t: Table, pks: set<int>, field: string, v: Val): (r: Table)
    ensures r.Keys == t.Keys
    ensures forall k :: k in t && k in pks ==> r[k] == t[k][field := v]
    ensures forall k :: k in t && k !in pks ==> r[k] == t[k]
  {
    map k | k in t :: if k in pks then t[k][field := v] else t[k]
  }

  /** Some entry lists row `k` of model `m` as a target. */
  predicate ListedBy(edges: seq<Edge>, m: string, k: int) {
    exists i :: 0 <= i < |edges| && edges[i].rel.target == m && k in Ids(edges[i].value)
  }

  /** Every attribute that holds `v` in `s` still holds it in `t`. */
  ghost predicate Keeps(s: Store, t: Store, v: Val) {
    forall m, k, a :: k in Rows(s, m) && a in Rows(s, m)[k] && Rows(s, m)[k][a] == v ==>
      k in Rows(t, m) && a in Rows(t, m)[k] && Rows(t, m)[k][a] == v
  }

  /** The two stores hold rows under the same keys of every model. */
  ghost predicate SameKeys(s: Store, t: Store) {
    forall m :: Rows(s, m).Keys == Rows(t, m).Keys
  }

  lemma KeepsTransitive(s: Store, s': Store, t: Store, v: Val)
    requires Keeps(s, s', v) && Keeps(s', t, v)
    ensures Keeps(s, t, v)
  {
  }

  /** `item.update_from_dict({relation_field: obj.pk}).save()` for every listed
      row of each backward foreign key, entry by entry. */
  function ApplyBfk(s: Store, pk: int, edges: seq<Edge>): (r: Step)
    ensures r.s.links == s.links
    ensures SameKeys(s, r.s)
    ensures r.Done? <==> forall i :: 0 <= i < |edges| ==> Resolvable(s, edges[i])
    decreases |edges|
  {
    if edges == [] then Done(s)
    else
      var e := edges[0];
      assert forall i :: 1 <= i < |edges| ==> edges[1..][i - 1] == edges[i];
      match Resolve(s, e)
      case Err(f) => Failed(f, s)
      case Ok(ids) => ApplyBfk(BfkStep(s, pk, e, ids), pk, edges[1..])
  }

  /** One backward foreign-key entry: its listed rows now point at the owner. */
  function BfkStep(s: Store, pk: int, e: Edge, ids: set<int>): (r: Store)
    ensures r.links == s.links
    ensures SameKeys(s, r)
    ensures forall m, k :: k in Rows(s, m) && !(m == e.rel.target && k in ids) ==> Rows(r, m)[k] == Rows(s, m)[k]
    ensures forall k :: k in ids && k in Rows(s, e.rel.target) ==>
      Rows(r, e.rel.target)[k] == Rows(s, e.rel.target)[k][e.rel.relationField := Int(pk)]
  {
    PutTable(s, e.rel.target, SetField(Rows(s, e.rel.target), ids, e.rel.relationField, Int(pk)))
  }

  /** The backward foreign-key phase, whether it completes or raises, writes
      only rows some entry lists. */
  lemma {:induction false} BfkLeavesUnlisted(s: Store, pk: int, edges: seq<Edge>)
    ensures forall m, k :: k in Rows(s, m) && !ListedBy(edges, m, k) ==>
      Rows(ApplyBfk(s, pk, edges).s, m)[k] == Rows(s, m)[k]
    decreases |edges|
  {
    if edges != [] {
      var e := edges[0];
      var tail := edges[1..];
      assert forall i :: 1 <= i < |edges| ==> tail[i - 1] == edges[i];
      assert forall m, k :: ListedBy(tail, m, k) ==> ListedBy(edges, m, k);
      var res := Resolve(s, e);
      if res.Ok? {
        var s' := BfkStep(s, pk, e, res.value);
        assert ApplyBfk(s, pk, edges) == ApplyBfk(s', pk, tail);
        BfkLeavesUnlisted(s', pk, tail);
        forall m, k | k in Rows(s, m) && !ListedBy(edges, m, k)
          ensures Rows(ApplyBfk(s, pk, edges).s, m)[k] == Rows(s, m)[k]
        {
          assert !(m == e.rel.target && k in res.value);
        }
      }
    }
  }

  lemma BfkStepKeeps(s: Store, pk: int, e: Edge, ids: set<int>)
    ensures Keeps(s, BfkStep(s, pk, e, ids), Int(pk))
  {
    var r := BfkStep(s, pk, e, ids);
    forall m, k, a | k in Rows(s, m) && a in Rows(s, m)[k] && Rows(s, m)[k][a] == Int(pk)
      ensures k in Rows(r, m) && a in Rows(r, m)[k] && Rows(r, m)[k][a] == Int(pk)
    {
      if m == e.rel.target && k in ids {
        assert Rows(r, m)[k] == Rows(s, m)[k][e.rel.relationField := Int(pk)];
      }
    }
  }

  /** A foreign key set to the owner stays set: the phase writes no other value. */
  lemma {:induction false} BfkKeeps(s: Store, pk: int, edges: seq<Edge>)
    ensures Keeps(s, ApplyBfk(s, pk, edges).s, Int(pk))
    decreases |edges|
  {
    if edges != [] {
      var e := edges[0];
      var tail := edges[1..];
      var res := Resolve(s, e);
      if res.Ok? {
        var s' := BfkStep(s, pk, e, res.value);
        assert ApplyBfk(s, pk, edges) == ApplyBfk(s', pk, tail);
        BfkKeeps(s', pk, tail);
        BfkStepKeeps(s, pk, e, res.value);
        KeepsTransitive(s, s', ApplyBfk(s', pk, tail).s, Int(pk));
      }
    }
  }

  /** After the backward foreign keys are applied, every listed row's foreign
      key holds the owner's primary key. */
  lemma {:induction false} BfkPointsAtOwner(s: Store, pk: int, edges: seq<Edge>)
    requires ApplyBfk(s, pk, edges).Done?
    ensures forall i, k :: 0 <= i < |edges| && k in Ids(edges[i].value) ==>
      PointsAt(ApplyBfk(s, pk, edges).s, edges[i], k, pk)
    decreases |edges|
  {
    if edges != [] {
      var e := edges[0];
      var tail := edges[1..];
      assert forall i :: 1 <= i < |edges| ==> tail[i - 1] == edges[i];
      var ids := Resolve(s, e).value;
      var s' := BfkStep(s, pk, e, ids);
      var r := ApplyBfk(s', pk, tail).s;
      assert ApplyBfk(s, pk, edges).s == r;
      BfkPointsAtOwner(s', pk, tail);
      BfkKeeps(s', pk, tail);
      forall k | k in Ids(e.value)
        ensures PointsAt(r, e, k, pk)
      {
        assert PointsAt(s', e, k, pk);
      }
      forall i, k | 1 <= i < |edges| && k in Ids(edges[i].value)
        ensures PointsAt(r, edges[i], k, pk)
      {
        assert PointsAt(r, tail[i - 1], k, pk);
      }
    }
  }

  /** Row `k` of the entry's target holds the owner's key in the foreign key. */
  predicate PointsAt(s: Store, e: Edge, k: int, pk: int) {
    var t := Rows(s, e.rel.target);
    k in t && e.rel.relationField in t[k] && t[k][e.rel.relationField] == Int(pk)
  }

  /** `item.update_from_dict({obj._meta.db_table: obj}).save()` on the one row
      each backward one-to-one entry names. */
  function ApplyBo2o(s: Store, pk: int, dbTable: string, edges: seq<Edge>): (r: Step)
    ensures r.s.links == s.links
    ensures SameKeys(s, r.s)
    ensures r.Done? <==> forall i :: 0 <= i < |edges| ==> Found(Rows(s, edges[i].rel.target), edges[i].value)
    ensures r.Failed? ==> r.failure.NotFound?
    decreases |edges|
  {
    if edges == [] then Done(s)
    else
      var e := edges[0];
      assert forall i :: 1 <= i < |edges| ==> edges[1..][i - 1] == edges[i];
      if !Found(Rows(s, e.rel.target), e.value) then Failed(NotFound(e.rel.name, e.value), s)
      else ApplyBo2o(Bo2oStep(s, pk, dbTable, e), pk, dbTable, edges[1..])
  }

  /** Some entry names row `k` of model `m`. */
  predicate NamedBy(edges: seq<Edge>, m: string, k: int) {
    exists i :: 0 <= i < |edges| && edges[i].rel.target == m && edges[i].value == Int(k)
  }

  /** One backward one-to-one entry: the named row now refers to the owner. */
  function Bo2oStep(s: Store, pk: int, dbTable: string, e: Edge): (r: Store)
    requires Found(Rows(s, e.rel.target), e.value)
    ensures r.links == s.links
    ensures SameKeys(s, r)
    ensures forall m, k :: k in Rows(s, m) && !(m == e.rel.target && e.value == Int(k)) ==> Rows(r, m)[k] == Rows(s, m)[k]
    ensures Rows(r, e.rel.target)[e.value.i] == Rows(s, e.rel.target)[e.value.i][dbTable := Ref(pk)]
  {
    var k := e.value.i;
    Put(s, e.rel.target, k, Rows(s, e.rel.target)[k][dbTable := Ref(pk)])
  }

  /** The backward one-to-one phase writes only rows some entry names. */
  lemma {:induction false} Bo2oLeavesUnnamed(s: Store, pk: int, dbTable: string, edges: seq<Edge>)
    ensures forall m, k :: k in Rows(s, m) && !NamedBy(edges, m, k) ==>
      Rows(ApplyBo2o(s, pk, dbTable, edges).s, m)[k] == Rows(s, m)[k]
    decreases |edges|
  {
    if edges != [] {
      var e := edges[0];
      var tail := edges[1..];
      assert forall i :: 1 <= i < |edges| ==> tail[i - 1] == edges[i];
      assert forall m, k :: NamedBy(tail, m, k) ==> NamedBy(edges, m, k);
      if Found(Rows(s, e.rel.target), e.value) {
        var s' := Bo2oStep(s, pk, dbTable, e);
        assert ApplyBo2o(s, pk, dbTable, edges) == ApplyBo2o(s', pk, dbTable, tail);
        Bo2oLeavesUnnamed(s', pk, dbTable, tail);
        forall m, k | k in Rows(s, m) && !NamedBy(edges, m, k)
          ensures Rows(ApplyBo2o(s, pk, dbTable, edges).s, m)[k] == Rows(s, m)[k]
        {
          assert !(m == e.rel.target && e.value == Int(k));
        }
      }
    }
  }

  lemma Bo2oStepKeeps(s: Store, pk: int, dbTable: string, e: Edge)
    requires Found(Rows(s, e.rel.target), e.value)
    ensures Keeps(s, Bo2oStep(s, pk, dbTable, e), Ref(pk))
  {
    var r := Bo2oStep(s, pk, dbTable, e);
    forall m, k, a | k in Rows(s, m) && a in Rows(s, m)[k] && Rows(s, m)[k][a] == Ref(pk)
      ensures k in Rows(r, m) && a in Rows(r, m)[k] && Rows(r, m)[k][a] == Ref(pk)
    {
      if m == e.rel.target && e.value == Int(k) {
        assert Rows(r, m)[k] == Rows(s, m)[k][dbTable := Ref(pk)];
      }
    }
  }

  /** A reference to the owner stays: the phase writes no other value. */
  lemma {:induction false} Bo2oKeeps(s: Store, pk: int, dbTable: string, edges: seq<Edge>)
    ensures Keeps(s, ApplyBo2o(s, pk, dbTable, edges).s, Ref(pk))
    decreases |edges|
  {
    if edges != [] {
      var e := edges[0];
      if Found(Rows(s, e.rel.target), e.value) {
        var s' := Bo2oStep(s, pk, dbTable, e);
        assert ApplyBo2o(s, pk, dbTable, edges) == ApplyBo2o(s', pk, dbTable, edges[1..]);
        Bo2oKeeps(s', pk, dbTable, edges[1..]);
        Bo2oStepKeeps(s, pk, dbTable, e);
        KeepsTransitive(s, s', ApplyBo2o(s', pk, dbTable, edges[1..]).s, Ref(pk));
      }
    }
  }

  /** After the backward one-to-ones are applied, every named row refers to
      the owner under the owner's table name. */
  lemma {:induction false} Bo2oRefersToOwner(s: Store, pk: int, dbTable: string, edges: seq<Edge>)
    requires ApplyBo2o(s, pk, dbTable, edges).Done?
    ensures forall i :: 0 <= i < |edges| ==>
      edges[i].value.Int? &&
      var t := Rows(ApplyBo2o(s, pk, dbTable, edges).s, edges[i].rel.target);
      edges[i].value.i in t && dbTable in t[edges[i].value.i] && t[edges[i].value.i][dbTable] == Ref(pk)
    decreases |edges|
  {
    if edges != [] {
      var e := edges[0];
      assert forall i :: 1 <= i < |edges| ==> edges[1..][i - 1] == edges[i];
      var s' := Bo2oStep(s, pk, dbTable, e);
      assert ApplyBo2o(s, pk, dbTable, edges) == ApplyBo2o(s', pk, dbTable, edges[1..]);
      Bo2oRefersToOwner(s', pk, dbTable, edges[1..]);
      Bo2oKeeps(s', pk, dbTable, edges[1..]);
      assert Rows(s', e.rel.target)[e.value.i][dbTable] == Ref(pk);
    }
  }

  /** `upsert(data, oid)`: split, write the scalars, then apply the
      many-to-many, backward foreign-key and backward one-to-one entries. */
  function Upsert(s: Store, meta: Meta, data: Data, oid: Option<int>): (r: Outcome)
    ensures Truthy(oid) ==> r.pk == oid.value
    ensures !Truthy(oid) ==> r.pk !in Rows(s, meta.model) && r.pk > 0
    ensures r.pk in Rows(r.s, meta.model)
    ensures forall l :: Linked(s, l) <= Linked(r.s, l)
    ensures forall m :: Rows(r.s, m).Keys == Rows(s, m).Keys + (if m == meta.model then {r.pk} else {})
    ensures r.data.Keys == data.Keys - Names(meta.m2m) - Names(meta.bfk) - Names(meta.bo2o)
    ensures forall k :: k in r.data ==> r.data[k] == data[k]
  {
    var b := Split(meta, data);
    var w := WriteScalar(s, meta.model, b.scalars, oid);
    Relate(s, w.0, w.1, meta, b)
  }

  /** The three relation phases after the scalar write `s1` of row `pk`. */
  function Relate(s: Store, s1: Store, pk: int, meta: Meta, b: Buckets): (r: Outcome)
    requires s1.links == s.links
    requires forall m :: Rows(s1, m).Keys == Rows(s, m).Keys + (if m == meta.model then {pk} else {})
    ensures r.pk == pk
    ensures forall l :: Linked(s, l) <= Linked(r.s, l)
    ensures forall m :: Rows(r.s, m).Keys == Rows(s1, m).Keys
    ensures r.data == b.scalars
  {
    match Phases(s1, pk, meta, b)
    case Done(t) => Saved(t, pk, b.scalars)
    case Failed(f, t) => Raised(f, t, pk, b.scalars)
  }

  /** The many-to-many, backward foreign-key and backward one-to-one phases in
      turn; the first phase that raises stops the rest. */
  function Phases(s1: Store, pk: int, meta: Meta, b: Buckets): (r: Step)
    ensures forall l :: Linked(s1, l) <= Linked(r.s, l)
    ensures forall m :: Rows(r.s, m).Keys == Rows(s1, m).Keys
  {
    var m2m := ApplyM2M(s1, meta.model, pk, b.m2m);
    if m2m.Failed? then m2m
    else
      var bfk := ApplyBfk(m2m.s, pk, b.bfk);
      if bfk.Failed? then bfk
      else ApplyBo2o(bfk.s, pk, meta.dbTable, b.bo2o)
  }

  /** The store right after the scalar write of `upsert`, and the saved row's key. */
  function Written(s: Store, meta: Meta, data: Data, oid: Option<int>): (Store, int) {
    WriteScalar(s, meta.model, Split(meta, data).scalars, oid)
  }

  /** Every many-to-many entry's ids exist once the scalars are written. */
  predicate M2MResolvable(s: Store, meta: Meta, data: Data, oid: Option<int>) {
    var w := Written(s, meta, data, oid);
    var b := Split(meta, data);
    forall i :: 0 <= i < |b.m2m| ==> Resolvable(w.0, b.m2m[i])
  }

  /** Nothing is rolled back: when a many-to-many id is missing, the rows are
      as the scalar write left them; once every many-to-many id exists, each
      popped association gained exactly the listed ids, whether or not a
      later phase raises. */
  lemma UpsertPhases(s: Store, meta: Meta, data: Data, oid: Option<int>)
    ensures var r := Upsert(s, meta, data, oid);
      !M2MResolvable(s, meta, data, oid) ==> r.Raised? && r.s.tables == Written(s, meta, data, oid).0.tables
    ensures var r := Upsert(s, meta, data, oid);
      var b := Split(meta, data);
      M2MResolvable(s, meta, data, oid) ==> forall i :: 0 <= i < |b.m2m| ==>
        Linked(r.s, Link(meta.model, r.pk, b.m2m[i].rel.name)) ==
        Linked(s, Link(meta.model, r.pk, b.m2m[i].rel.name)) + Ids(b.m2m[i].value)
  {
    var b := Split(meta, data);
    var w := Written(s, meta, data, oid);
    assert Upsert(s, meta, data, oid) == Relate(s, w.0, w.1, meta, b);
    if M2MResolvable(s, meta, data, oid) {
      RelateAddsM2M(s, w.0, w.1, meta, b);
    } else {
      RelateStopsAtM2M(s, w.0, w.1, meta, b);
    }
  }

  /** A missing many-to-many id raises before any backward entry is applied. */
  lemma RelateStopsAtM2M(s: Store, s1: Store, pk: int, meta: Meta, b: Buckets)
    requires s1.links == s.links
    requires forall m :: Rows(s1, m).Keys == Rows(s, m).Keys + (if m == meta.model then {pk} else {})
    requires !(forall i :: 0 <= i < |b.m2m| ==> Resolvable(s1, b.m2m[i]))
    ensures var r := Relate(s, s1, pk, meta, b); r.Raised? && r.s.tables == s1.tables
  {
    var m2m := ApplyM2M(s1, meta.model, pk, b.m2m);
    assert Relate(s, s1, pk, meta, b) == Raised(m2m.failure, m2m.s, pk, b.scalars);
  }

  /** Once every many-to-many id exists, each popped association gained its
      ids, whatever the backward phases do. */
  lemma RelateAddsM2M(s: Store, s1: Store, pk: int, meta: Meta, b: Buckets)
    requires s1.links == s.links
    requires forall m :: Rows(s1, m).Keys == Rows(s, m).Keys + (if m == meta.model then {pk} else {})
    requires DistinctEdges(b.m2m)
    requires forall i :: 0 <= i < |b.m2m| ==> Resolvable(s1, b.m2m[i])
    ensures var r := Relate(s, s1, pk, meta, b);
      forall i :: 0 <= i < |b.m2m| ==>
        Linked(r.s, Link(meta.model, pk, b.m2m[i].rel.name)) ==
        Linked(s, Link(meta.model, pk, b.m2m[i].rel.name)) + Ids(b.m2m[i].value)
  {
    M2MAdds(s1, meta.model, pk, b.m2m);
    RelateLinksAfterM2M(s, s1, pk, meta, b);
  }

  /** Once the many-to-many phase completes, the associations are final. */
  lemma RelateLinksAfterM2M(s: Store, s1: Store, pk: int, meta: Meta, b: Buckets)
    requires s1.links == s.links
    requires forall m :: Rows(s1, m).Keys == Rows(s, m).Keys + (if m == meta.model then {pk} else {})
    requires ApplyM2M(s1, meta.model, pk, b.m2m).Done?
    ensures Relate(s, s1, pk, meta, b).s.links == ApplyM2M(s1, meta.model, pk, b.m2m).s.links
  {
    LaterPhasesKeepLinks(ApplyM2M(s1, meta.model, pk, b.m2m).s, pk, meta, b);
  }

  /** The backward phases touch no association. */
  lemma LaterPhasesKeepLinks(s2: Store, pk: int, meta: Meta, b: Buckets)
    ensures var bfk := ApplyBfk(s2, pk, b.bfk);
      bfk.s.links == s2.links && ApplyBo2o(bfk.s, pk, meta.dbTable, b.bo2o).s.links == s2.links
  {
  }

  /** Every popped entry of every bucket resolves against the store `t`. */
  predicate AllResolvable(t: Store, b: Buckets) {
    && (forall i :: 0 <= i < |b.m2m| ==> Resolvable(t, b.m2m[i]))
    && (forall i :: 0 <= i < |b.bfk| ==> Resolvable(t, b.bfk[i]))
    && (forall i :: 0 <= i < |b.bo2o| ==> Found(Rows(t, b.bo2o[i].rel.target), b.bo2o[i].value))
  }

  /** `upsert` returns normally exactly when every id it is given names a row
      once the scalars are written: no phase creates or deletes rows. */
  lemma UpsertSucceeds(s: Store, meta: Meta, data: Data, oid: Option<int>)
    ensures Upsert(s, meta, data, oid).Saved? <==> AllResolvable(Written(s, meta, data, oid).0, Split(meta, data))
  {
    var b := Split(meta, data);
    var w := Written(s, meta, data, oid);
    assert Upsert(s, meta, data, oid) == Relate(s, w.0, w.1, meta, b);
    RelateSucceeds(s, w.0, w.1, meta, b);
  }

  lemma RelateSucceeds(s: Store, s1: Store, pk: int, meta: Meta, b: Buckets)
    requires s1.links == s.links
    requires forall m :: Rows(s1, m).Keys == Rows(s, m).Keys + (if m == meta.model then {pk} else {})
    ensures Relate(s, s1, pk, meta, b).Saved? <==> AllResolvable(s1, b)
  {
    PhasesSucceed(s1, pk, meta, b);
  }

  lemma PhasesSucceed(s1: Store, pk: int, meta: Meta, b: Buckets)
    ensures Phases(s1, pk, meta, b).Done? <==> AllResolvable(s1, b)
  {
    var m2m := ApplyM2M(s1, meta.model, pk, b.m2m);
    if m2m.Done? {
      SameKeysResolve(s1, m2m.s, b.bfk);
      var bfk := ApplyBfk(m2m.s, pk, b.bfk);
      if bfk.Done? {
        SameKeysFind(s1, bfk.s, b.bo2o);
      }
    }
  }

  lemma SameKeysResolve(s: Store, t: Store, edges: seq<Edge>)
    requires forall m :: Rows(s, m).Keys == Rows(t, m).Keys
    ensures forall i :: 0 <= i < |edges| ==> (Resolvable(s, edges[i]) <==> Resolvable(t, edges[i]))
  {
    forall i | 0 <= i < |edges|
      ensures Resolvable(s, edges[i]) <==> Resolvable(t, edges[i])
    {
      assert Rows(s, edges[i].rel.target).Keys == Rows(t, edges[i].rel.target).Keys;
    }
  }

  lemma SameKeysFind(s: Store, t: Store, edges: seq<Edge>)
    requires forall m :: Rows(s, m).Keys == Rows(t, m).Keys
    ensures forall i :: 0 <= i < |edges| ==>
      (Found(Rows(s, edges[i].rel.target), edges[i].value) <==> Found(Rows(t, edges[i].rel.target), edges[i].value))
  {
    forall i | 0 <= i < |edges|
      ensures Found(Rows(s, edges[i].rel.target), edges[i].value) <==> Found(Rows(t, edges[i].rel.target), edges[i].value)
    {
      assert Rows(s, edges[i].rel.target).Keys == Rows(t, edges[i].rel.target).Keys;
    }
  }

  /** Many-to-many ids accumulate: two upserts of the same row, each listing
      ids for relation `meta.m2m[i]`, leave it associated with the ids it had
      and the ids of both payloads; the second payload replaces nothing. */
  lemma M2MAccumulates(s: Store, meta: Meta, d1: Data, d2: Data, id: int, i: int)
    requires id != 0 && 0 <= i < |meta.m2m| && FirstRel(meta.m2m, i)
    requires meta.m2m[i].name in d1 && meta.m2m[i].name in d2
    requires M2MResolvable(s, meta, d1, Some(id))
    requires M2MResolvable(Upsert(s, meta, d1, Some(id)).s, meta, d2, Some(id))
    ensures var l := Link(meta.model, id, meta.m2m[i].name);
      var s1 := Upsert(s, meta, d1, Some(id)).s;
      Linked(Upsert(s1, meta, d2, Some(id)).s, l) == Linked(s, l) + Ids(d1[meta.m2m[i].name]) + Ids(d2[meta.m2m[i].name])
  {
    var n := meta.m2m[i].name;
    var s1 := Upsert(s, meta, d1, Some(id)).s;
    PopsRelation(meta, d1, i);
    PopsRelation(meta, d2, i);
    var j1 :| 0 <= j1 < |Split(meta, d1).m2m| && Split(meta, d1).m2m[j1] == Edge(meta.m2m[i], d1[n]);
    var j2 :| 0 <= j2 < |Split(meta, d2).m2m| && Split(meta, d2).m2m[j2] == Edge(meta.m2m[i], d2[n]);
    UpsertPhases(s, meta, d1, Some(id));
    UpsertPhases(s1, meta, d2, Some(id));
  }

  /** A many-to-many relation named in the payload lands in the first bucket. */
  lemma PopsRelation(meta: Meta, data: Data, i: int)
    requires 0 <= i < |meta.m2m| && FirstRel(meta.m2m, i) && meta.m2m[i].name in data
    ensures Edge(meta.m2m[i], data[meta.m2m[i].name]) in Split(meta, data).m2m
  {
    PoppedComplete(meta.m2m, data, i);
  }

  /** Whatever the outcome, the saved row keeps what the scalar write put in
      it unless a backward entry names the row itself. */
  lemma OwnerRowAsWritten(s: Store, meta: Meta, data: Data, oid: Option<int>)
    ensures var b := Split(meta, data);
      var w := Written(s, meta, data, oid);
      var r := Upsert(s, meta, data, oid);
      !ListedBy(b.bfk, meta.model, w.1) && !NamedBy(b.bo2o, meta.model, w.1) ==>
        Rows(r.s, meta.model)[w.1] == Rows(w.0, meta.model)[w.1]
  {
    var b := Split(meta, data);
    var w := Written(s, meta, data, oid);
    assert Upsert(s, meta, data, oid) == Relate(s, w.0, w.1, meta, b);
    RelateKeepsOwnerRow(s, w.0, w.1, meta, b);
  }

  lemma RelateKeepsOwnerRow(s: Store, s1: Store, pk: int, meta: Meta, b: Buckets)
    requires s1.links == s.links
    requires forall m :: Rows(s1, m).Keys == Rows(s, m).Keys + (if m == meta.model then {pk} else {})
    ensures !ListedBy(b.bfk, meta.model, pk) && !NamedBy(b.bo2o, meta.model, pk) ==>
      Rows(Relate(s, s1, pk, meta, b).s, meta.model)[pk] == Rows(s1, meta.model)[pk]
  {
    if !ListedBy(b.bfk, meta.model, pk) && !NamedBy(b.bo2o, meta.model, pk) {
      var m2m := ApplyM2M(s1, meta.model, pk, b.m2m);
      if m2m.Done? {
        BfkLeavesUnlisted(m2m.s, pk, b.bfk);
        var bfk := ApplyBfk(m2m.s, pk, b.bfk);
        if bfk.Done? {
          Bo2oLeavesUnnamed(bfk.s, pk, meta.dbTable, b.bo2o);
        }
      }
    }
  }

  /** A later backward one-to-one entry does not undo a backward foreign key:
      once every many-to-many and backward foreign-key id exists, each listed
      row refers to the saved row when `upsert` returns or raises, unless a
      backward one-to-one entry names that row. */
  lemma UpsertKeepsBfk(s: Store, meta: Meta, data: Data, oid: Option<int>)
    requires M2MResolvable(s, meta, data, oid)
    requires var b := Split(meta, data);
      forall i :: 0 <= i < |b.bfk| ==> Resolvable(Written(s, meta, data, oid).0, b.bfk[i])
    ensures var b := Split(meta, data);
      var r := Upsert(s, meta, data, oid);
      forall i, k :: 0 <= i < |b.bfk| && k in Ids(b.bfk[i].value) && !NamedBy(b.bo2o, b.bfk[i].rel.target, k) ==>
        PointsAt(r.s, b.bfk[i], k, r.pk)
  {
    var b := Split(meta, data);
    var w := Written(s, meta, data, oid);
    assert Upsert(s, meta, data, oid) == Relate(s, w.0, w.1, meta, b);
    RelateKeepsBfk(s, w.0, w.1, meta, b);
  }

  lemma RelateKeepsBfk(s: Store, s1: Store, pk: int, meta: Meta, b: Buckets)
    requires s1.links == s.links
    requires forall m :: Rows(s1, m).Keys == Rows(s, m).Keys + (if m == meta.model then {pk} else {})
    requires forall i :: 0 <= i < |b.m2m| ==> Resolvable(s1, b.m2m[i])
    requires forall i :: 0 <= i < |b.bfk| ==> Resolvable(s1, b.bfk[i])
    ensures var r := Relate(s, s1, pk, meta, b);
      forall i, k :: 0 <= i < |b.bfk| && k in Ids(b.bfk[i].value) && !NamedBy(b.bo2o, b.bfk[i].rel.target, k) ==>
        PointsAt(r.s, b.bfk[i], k, pk)
  {
    var m2m := ApplyM2M(s1, meta.model, pk, b.m2m);
    SameKeysResolve(s1, m2m.s, b.bfk);
    var bfk := ApplyBfk(m2m.s, pk, b.bfk);
    BfkPointsAtOwner(m2m.s, pk, b.bfk);
    var bo2o := ApplyBo2o(bfk.s, pk, meta.dbTable, b.bo2o);
    Bo2oLeavesUnnamed(bfk.s, pk, meta.dbTable, b.bo2o);
    assert Relate(s, s1, pk, meta, b).s == bo2o.s;
    forall i, k | 0 <= i < |b.bfk| && k in Ids(b.bfk[i].value) && !NamedBy(b.bo2o, b.bfk[i].rel.target, k)
      ensures PointsAt(bo2o.s, b.bfk[i], k, pk)
    {
      assert PointsAt(bfk.s, b.bfk[i], k, pk);
    }
  }

  /** The pops empty the caller's dictionary of relation keys, so calling
      `upsert` again with the same dictionary, after it returned or raised,
      applies no relation: it only writes the scalars, returns normally and
      leaves every association as it was. */
  lemma RetryRelatesNothing(s: Store, meta: Meta, data: Data, oid: Option<int>, t: Store, oid2: Option<int>)
    ensures var r := Upsert(s, meta, data, oid);
      var retry := Upsert(t, meta, r.data, oid2);
      && retry.Saved?
      && retry.s.links == t.links
      && retry.data == r.data
  {
    var r := Upsert(s, meta, data, oid);
    SplitIdempotent(meta, data);
    var b := Split(meta, r.data);
    assert b == Buckets([], [], [], r.data);
    var w := WriteScalar(t, meta.model, b.scalars, oid2);
    assert Upsert(t, meta, r.data, oid2) == Relate(t, w.0, w.1, meta, b);
  }
}

=== FILE: values.dfy ===
/** Python values as they travel through payloads, records and option maps. */
module Values {

  /** A dynamically typed attribute value. `Ref(pk)` is a model instance
      assigned to an attribute (it stands for the object with that primary key);
      `DefaultRepr(cls, pk)` is the ORM's default text for a record, `<cls: pk>`,
      kept symbolic. */
  datatype Val =
    | Null
    | Bool(b: bool)
    | Int(i: int)
    | Str(s: string)
    | List(items: seq<Val>)
    | Ref(pk: int)
    | DefaultRepr(cls: string, key: int)

  /** Python's `str.endswith`. */
  predicate EndsWith(s: string, suffix: string) {
    |suffix| <= |s| && s[|s| - |suffix|..] == suffix
  }

  /** Python's `s.replace('_', ' ')`. */
  function SpaceUnderscores(s: string): (r: string)
    ensures |r| == |s|
    ensures forall i :: 0 <= i < |s| ==> r[i] == (if s[i] == '_' then ' ' else s[i])
    ensures '_' !in r
  {
    if s == [] then []
    else [if s[0] == '_' then ' ' else s[0]] + SpaceUnderscores(s[1..])
  }

  /** Python's `dict(pairs)`: a later pair overwrites an earlier one with the same key. */
  function Dict<K, V>(pairs: seq<(K, V)>): (d: map<K, V>)
    ensures d.Keys == set i | 0 <= i < |pairs| :: pairs[i].0
    ensures forall i :: 0 <= i < |pairs| ==> pairs[i].0 in d
    ensures forall i :: 0 <= i < |pairs| && LastWith(pairs, i) ==> d[pairs[i].0] == pairs[i].1
  {
    if pairs == [] then map[]
    else
      var init := pairs[..|pairs| - 1];
      var d0 := Dict(init);
      var d := d0[pairs[|pairs| - 1].0 := pairs[|pairs| - 1].1];
      DictKeysStep(pairs, init, d0, d);
      DictValuesStep(pairs, init, d0, d);
      d
  }

  /** Adding the last pair adds its key to the keys of the earlier pairs. */
  lemma DictKeysStep<K, V>(pairs: seq<(K, V)>, init: seq<(K, V)>, d0: map<K, V>, d: map<K, V>)
    requires |pairs| > 0 && init == pairs[..|pairs| - 1]
    requires d0.Keys == set i | 0 <= i < |init| :: init[i].0
    requires d == d0[pairs[|pairs| - 1].0 := pairs[|pairs| - 1].1]
    ensures d.Keys == set i | 0 <= i < |pairs| :: pairs[i].0
  {
    assert forall i :: 0 <= i < |init| ==> init[i] == pairs[i];
  }

  /** Adding the last pair keeps the value of every earlier key it does not repeat. */
  lemma DictValuesStep<K, V>(pairs: seq<(K, V)>, init: seq<(K, V)>, d0: map<K, V>, d: map<K, V>)
    requires |pairs| > 0 && init == pairs[..|pairs| - 1]
    requires forall i :: 0 <= i < |init| ==> init[i].0 in d0
    requires forall i :: 0 <= i < |init| && LastWith(init, i) ==> d0[init[i].0] == init[i].1
    requires d == d0[pairs[|pairs| - 1].0 := pairs[|pairs| - 1].1]
    ensures forall i :: 0 <= i < |pairs| && LastWith(pairs, i) ==> d[pairs[i].0] == pairs[i].1
  {
    forall i | 0 <= i < |pairs| - 1 && LastWith(pairs, i)
      ensures d[pairs[i].0] == pairs[i].1
    {
      assert init[i] == pairs[i];
      assert LastWith(init, i) by {
        forall j | i < j < |init| ensures init[j].0 != init[i].0 {
          assert init[j] == pairs[j];
        }
      }
    }
  }

  /** `{k: v for (k, keep, v) in entries if keep}`: the kept entries, a later
      key overwriting an earlier one. */
  function Comprehension<V>(entries: seq<(string, bool, V)>): (d: map<string, V>)
    ensures d.Keys == set i | 0 <= i < |entries| && entries[i].1 :: entries[i].0
    ensures forall i :: 0 <= i < |entries| && entries[i].1 && LastKeyed(entries, i) ==> d[entries[i].0] == entries[i].2
  {
    if entries == [] then map[]
    else
      var init := entries[..|entries| - 1];
      var d0 := Comprehension(init);
      var e := entries[|entries| - 1];
      var d := if e.1 then d0[e.0 := e.2] else d0;
      ComprehensionKeysStep(entries, init, d0, d);
      ComprehensionValuesStep(entries, init, d0, d);
      d
  }

  /** The last entry adds its key exactly when it is kept. */
  lemma ComprehensionKeysStep<V>(entries: seq<(string, bool, V)>, init: seq<(string, bool, V)>, d0: map<string, V>, d: map<string, V>)
    requires |entries| > 0 && init == entries[..|entries| - 1]
    requires d0.Keys == set i | 0 <= i < |init| && init[i].1 :: init[i].0
    requires var e := entries[|entries| - 1]; d == if e.1 then d0[e.0 := e.2] else d0
    ensures d.Keys == set i | 0 <= i < |entries| && entries[i].1 :: entries[i].0
  {
    assert forall i :: 0 <= i < |init| ==> init[i] == entries[i];
  }

  /** The last entry, when kept, overrides its key and keeps every other value. */
  lemma ComprehensionValuesStep<V>(entries: seq<(string, bool, V)>, init: seq<(string, bool, V)>, d0: map<string, V>, d: map<string, V>)
    requires |entries| > 0 && init == entries[..|entries| - 1]
    requires d0.Keys == set i | 0 <= i < |init| && init[i].1 :: init[i].0
    requires forall i :: 0 <= i < |init| && init[i].1 && LastKeyed(init, i) ==> d0[init[i].0] == init[i].2
    requires var e := entries[|entries| - 1]; d == if e.1 then d0[e.0 := e.2] else d0
    ensures forall i :: 0 <= i < |entries| && entries[i].1 && LastKeyed(entries, i) ==> d[entries[i].0] == entries[i].2
  {
    forall i | 0 <= i < |entries| - 1 && entries[i].1 && LastKeyed(entries, i)
      ensures d[entries[i].0] == entries[i].2
    {
      assert init[i] == entries[i];
      assert init[i].0 in d0;
      assert LastKeyed(init, i) by {
        forall j | i < j < |init| ensures init[j].0 != init[i].0 {
          assert init[j] == entries[j];
        }
      }
    }
  }

  /** No entry after position `i` has the key of entry `i`. */
  predicate LastKeyed<T>(entries: seq<(string, bool, T)>, i: int)
    requires 0 <= i < |entries|
  {
    forall j :: i < j < |entries| ==> entries[j].0 != entries[i].0
  }

  /** No pair after position `i` has the key of pair `i`. */
  predicate LastWith<K(==), V>(pairs: seq<(K, V)>, i: int)
    requires 0 <= i < |pairs|
  {
    forall j :: i < j < |pairs| ==> pairs[j].0 != pairs[i].0
  }

  /** Every key occurs in at most one pair. */
  predicate DistinctKeys<K(==), V>(pairs: seq<(K, V)>) {
    forall i, j :: 0 <= i < j < |pairs| ==> pairs[i].0 != pairs[j].0
  }

  /** With distinct keys every pair survives in the dictionary. */
  lemma DictOfDistinct<K, V>(pairs: seq<(K, V)>, i: int)
    requires DistinctKeys(pairs)
    requires 0 <= i < |pairs|
    ensures pairs[i].0 in Dict(pairs) && Dict(pairs)[pairs[i].0] == pairs[i].1
  {
    assert LastWith(pairs, i);
  }
}

=== FILE: wrappers.dfy ===
/** Failure-carrying wrappers shared by every module of the model. */
module Wrappers {

  /** An optional value: Python's `None` versus a present value. */
  datatype Option<+T> = None | Some(value: T)

  /** The outcome of an operation that can raise: `Err` stands for the exception. */
  datatype Result<+T, +E> = Ok(value: T) | Err(error: E) {

    predicate IsFailure() {
      Err?
    }

    function PropagateFailure<U>(): Result<U, E>
      requires Err?
    {
      Err(error)
    }

    function Extract(): T
      requires Ok?
    {
      value
    }
  }
}
